=== FILE: README.md ===
# Breast-cancer screening app: a Dafny model of its state layer and backend decisions

The app lets a signed-in user upload a mammogram, have a vision transformer classify
it as Benign or Malignant, and browse or delete their past scans. This project models
the parts of it that are logic rather than numerics or plumbing:

- **The three Redux slices** (`auth`, `scan`, `history`). Each reducer is a pure
  function over a closed action datatype. Each async thunk becomes a pure function from
  the store's session and an abstract remote outcome to the calls it issues and the
  action it settles with (`auth_slice.dfy`, `scan_slice.dfy`, `history_slice.dfy`).
- **The store** (`store.dfy`). It routes each action to its own slice, folds action
  sequences, and runs whole thunk dispatches: `pending` first, then the settled action.
- **The pages' control logic**:
  - the session gate shared by both pages (`page_session.dfy`);
  - the dashboard's upload-then-refresh, reset and render choice (`dashboard_page.dfy`);
  - the history page's delete-confirmation state machine and display precedence
    (`history_page.dfy`);
  - the upload zone's drag and forwarding handlers (`upload_zone.dfy`).
- **The overview figures** over the cached scan list (`dashboard_stats.dfy`).
- **The Flask backend's pure decisions** (`backend.dfy`, with string helpers in
  `text.dfy`):
  - the label and confidence choice;
  - the file extension and storage path;
  - recovering a storage path from a public URL;
  - the order of checks in `/predict` and `DELETE /scans/<id>`.

  Identity-provider, storage and database calls become parameters.

Shared types are in `common.dfy`. There, `Remote<T>` is a call that either answers or
throws, and `HttpReply<T>` is the client's view of a `fetch` response. A JavaScript
string that the code tests for truthiness (an error message, `scanToDelete`) is a
`string`, and the empty string stands for a missing one.

Four behaviours of the code are worth stating, because a reader might expect otherwise:

- The scan and history reducers carry no request-sequence tag. A late completion of an
  earlier upload overwrites the state (`ScanSlice.LateCompletionOverwrites`).
- `fetchHistory` reads no session and is not a no-op without one
  (`Store.FetchHistoryIgnoresSession`).
- Duplicate deletes are not merged.
- A failed delete leaves no trace in the state: `deleteScan.rejected` has no reducer
  case.

## Model

| member | source | states |
|---|---|---|
| AuthSlice.InitialConsistent | client/src/lib/features/authSlice.ts:12-17 | The first auth state has no user and no session, is loading, has no error, and satisfies the user/session lock-step invariant. |
| AuthSlice.CheckSessionSettle | client/src/lib/features/authSlice.ts:19-26 | `checkSession` fulfils exactly when the provider answers, with its session (possibly none), and rejects with the raised error's message otherwise. |
| AuthSlice.SignOutSettle | client/src/lib/features/authSlice.ts:28-31 | `signOut` fulfils exactly when the provider call succeeds, and otherwise rejects. |
| AuthSlice.Reduce | client/src/lib/features/authSlice.ts:37-60 | Every case keeps user and session in lock-step. Only a resolved or pushed session replaces the session, and only sign-out clears it. A failed check records its message, or "Failed to check session" when it has none. Only a failed check writes the error, and nothing ever clears it. Only a new check raises loading. |
| AuthSlice.SignOutWithoutSessionIsNoOp | client/src/lib/features/authSlice.ts:57-60 | Applying a successful sign-out with nobody signed in leaves the auth state unchanged. |
| AuthSlice.FailedSignOutChangesNothing | client/src/lib/features/authSlice.ts:43-60 | `signOut.pending` and `signOut.rejected` have no case, so a failed sign-out's whole lifecycle leaves the state as it was. |
| ScanSlice.UploadThunk | client/src/lib/features/scanSlice.ts:25-61 | Without a session, no request is made and the upload rejects with "User not authenticated". With one, exactly one POST goes to `<api>/predict` with the bearer token and the file. It fulfils exactly for an ok response whose body parses, with that body. A non-ok response rejects with the body's `error`, or "Failed to analyze scan" when that is missing. |
| ScanSlice.Reduce | client/src/lib/features/scanSlice.ts:67-86 | `pending` raises scanning and clears result and error. `fulfilled` and `rejected` end scanning and write only their own field. `clearScan` clears result and error but keeps scanning. |
| ScanSlice.PendingThenSettledHasOneOutcome | client/src/lib/features/scanSlice.ts:74-86 | One upload that is not overtaken ends with scanning off and exactly one of result and error set. |
| ScanSlice.ClearIdempotent | client/src/lib/features/scanSlice.ts:67-70 | Clearing twice is the same as clearing once. |
| ScanSlice.LateCompletionOverwrites | client/src/lib/features/scanSlice.ts:79-86 | With two uploads pending, the earlier one's completion shows its result and drops scanning although the later one is still in flight. |
| ScanSlice.ResultAndErrorTogetherReachable | client/src/lib/features/scanSlice.ts:74-86 | Starting from the initial state, two overlapping uploads (the first succeeding, the second failing) leave a result and an error set together. |
| HistorySlice.RemoveId | client/src/lib/features/historySlice.ts:90-92 | The delete filter never lengthens the list, and a record is kept exactly when it is in the list and carries another id. |
| HistorySlice.RemoveIdSpec | client/src/lib/features/historySlice.ts:89-93 | The delete filter's output is a subsequence of the list (order kept). It holds exactly the records with another id. Its length plus the number of records carrying the id is the old length. |
| HistorySlice.RemoveAbsentId | client/src/lib/features/historySlice.ts:89-93 | Filtering out an id that no record carries returns the list unchanged. |
| HistorySlice.RemoveIdIdempotent | client/src/lib/features/historySlice.ts:89-93 | Filtering out the same id twice is the same as filtering it out once. |
| HistorySlice.RemoveIdConcat | client/src/lib/features/historySlice.ts:89-93 | The filter distributes over concatenation: no record moves across a split. |
| HistorySlice.FetchSettle | client/src/lib/features/historySlice.ts:25-40 | `fetchHistory` fulfils exactly when the query answers, with its rows, and rejects with the error's message otherwise. |
| HistorySlice.DeleteThunk | client/src/lib/features/historySlice.ts:42-69 | Without a session, no request is made and the delete rejects with "No session". With one, exactly one DELETE goes to `<api>/scans/<id>` with the bearer token. It fulfils exactly for an ok response, and always with the id it was given. A non-ok response rejects with the body's `error`, or "Failed to delete" when that is missing. |
| HistorySlice.Reduce | client/src/lib/features/historySlice.ts:76-93 | A fetch raises loading and clears the error while keeping the list. A successful fetch replaces the whole list. A failed one keeps the list and records the error. A confirmed delete removes exactly the records with that id, keeps the others' order, and leaves loading and the error alone. A pending or failed delete changes nothing. |
| HistorySlice.DeleteFulfilledIdempotent | client/src/lib/features/historySlice.ts:89-93 | A confirmed delete applied twice is the same as once. For an id that is not cached it is a no-op. |
| HistorySlice.DeleteMiddleOfThree | client/src/lib/features/historySlice.ts:89-93 | Deleting the second of three records with distinct ids leaves the first and the third, in that order. |
| Store.Dispatch | client/src/lib/store.ts:6-14 | An action of one slice is handled by that slice's reducer and leaves the other two slices unchanged. |
| Store.RunKeepsAuthConsistent | client/src/lib/store.ts:6-14 | Any sequence of actions from a state with consistent auth keeps auth consistent. |
| Store.ReachableAuthConsistent | client/src/lib/store.ts:6-14 | Every state reachable from `makeStore()`'s initial state has user and session in lock-step. |
| Store.RunFramesSlices | client/src/lib/store.ts:8-12 | Any number of actions that all belong to one slice leave the other two slices unchanged. |
| Store.RunConcat | client/src/lib/store.ts:6-14 | Running two action sequences one after the other equals running their concatenation. |
| Store.CheckSession | client/src/lib/features/authSlice.ts:19-26 | A whole `checkSession` dispatch makes one provider call and ends with loading off. On an answer it installs the answered session and keeps the old error. On an error it keeps the session and records the message or the fallback. |
| Store.SignOut | client/src/lib/features/authSlice.ts:28-31 | A whole `signOut` dispatch makes one provider call. Success clears exactly user and session. Failure leaves the store as it was. |
| Store.UploadScan | client/src/lib/features/scanSlice.ts:25-61 | A whole `uploadScan` dispatch ends with scanning off and exactly one of result and error. Without a session it makes no call and shows "User not authenticated". With one it makes one POST, and the slice then holds exactly the outcome the reply carries: the ok body as the result, or the body's `error` (else "Failed to analyze scan") for a non-ok response, or the transport or parse error's message. |
| Store.UploadForgetsPreviousOutcome | client/src/lib/features/scanSlice.ts:67-86 | Whatever result, error or upload in flight the scan slice held before, an upload makes the same call and ends in the same scan state. |
| Store.FetchHistory | client/src/lib/features/historySlice.ts:25-40 | A whole `fetchHistory` dispatch makes one query and ends with loading off. On an answer the list is the rows and the error is cleared. On an error the list is kept and the message recorded. |
| Store.DeleteScan | client/src/lib/features/historySlice.ts:42-69 | Without a session, a whole `deleteScan` dispatch makes no call and changes nothing. A confirmed delete removes exactly the records with that id, in order, and touches nothing else. Any failure leaves the whole store as it was. |
| Store.FetchHistoryIgnoresSession | client/src/lib/features/historySlice.ts:25-40 | `fetchHistory` issues the same query and reaches the same history slice whatever the auth slice holds. |
| Store.RepeatedDeleteHarmless | client/src/lib/features/historySlice.ts:89-93 | A second confirmed delete of the same id, unmerged, leaves the store as the first left it. |
| PageSession.SessionEffect | client/src/app/page.tsx:37-43 | The page redirects to the login page exactly when auth has resolved with no user. It requests the history exactly when a user is present. Otherwise it does nothing. |
| PageSession.Open | client/src/app/page.tsx:33-43 | Mounting a page dispatches `checkSession` first. The page redirects exactly when the store had resolved with nobody at mount or the check finds no session. It queries the history exactly when a user was in the store at mount or the check finds a session, so a signed-in store is queried before the check settles. However often it is queried, the history is what one query leaves, and without a query it is untouched. Auth ends resolved, as the check leaves it. On a fresh load exactly one of redirect and query happens. The effect runs after the settle only when the loading flag the page last rendered drops or the check replaces the user object, so there are at most three queries. |
| PageSession.Requests | client/src/app/page.tsx:37-43 | At least one effect run asks for the history exactly when one of them is `RequestHistory`. |
| PageSession.RefetchIsOneFetch | client/src/lib/features/historySlice.ts:25-40 | Repeating `fetchHistory` with the same reply any positive number of times leaves the store one fetch leaves. |
| PageSession.SignedInVisitQueriesBeforeCheck | client/src/app/page.tsx:33-43 | A store already signed in is queried at mount. If the check then finds no session, the page still redirects, with the queried history in the store. |
| PageSession.SignedInVisitQueriesThrice | client/src/app/page.tsx:33-43 | A signed-in store whose session survives the check, with a re-render while the check is pending, queries the history three times. |
| PageSession.FailedCheckOnSignedInStoreQueriesOnce | client/src/app/page.tsx:33-43 | A failed check on a signed-in, resolved store changes neither effect dependency, so the history is queried once, at mount, and the page does not redirect. |
| PageSession.ConsistentAfterCheck | client/src/lib/features/authSlice.ts:45-56 | A `checkSession` dispatch keeps user and session in lock-step. |
| PageSession.FreshAnonymousVisitIsRedirected | client/src/app/page.tsx:33-43 | A fresh store whose session check finds nobody ends on the login page, with only the session call made and the history untouched. |
| DashboardPage.HandleFileSelect | client/src/app/page.tsx:45-48 | After the awaited upload, the history is requested exactly when the user the handler saw is present, and then shows the fetched rows. The upload has ended with exactly one of result and error. Auth is untouched. |
| DashboardPage.RefreshIgnoresUploadOutcome | client/src/app/page.tsx:45-48 | Whether the history is refreshed, and what it then shows, does not depend on the upload's outcome. |
| DashboardPage.ResetScan | client/src/app/page.tsx:50-52 | Resetting clears only the scan's result and error. Scanning, auth and history are unchanged. |
| DashboardPage.Render | client/src/app/page.tsx:54-125 | The loader shows exactly when auth is loading, or a user is present with the history loading and empty. Nothing shows exactly when auth has resolved with no user. Past the loader and the gate, the overview tab always shows the stats of the cached list. In the upload tab a result hides the error and the zone. Otherwise a non-empty error shows above the zone. |
| DashboardPage.DropDuringScanStartsSecondUpload | client/src/components/UploadZone.tsx:31-37 | A file dropped during a scan still reaches the page. A second `pending` keeps scanning on, and the first completion ends it. |
| DashboardPage.UploadTabAfterUpload | client/src/app/page.tsx:98-125 | For a signed-in user, once an upload has settled, the upload tab shows either its result or an idle zone with the error. |
| DashboardPage.RenderFollowsSessionEffect | client/src/app/page.tsx:37-43 | The page renders nothing exactly when the session effect redirects. Whenever it shows content, the effect asks for the history. |
| DashboardPage.GateIgnoresTab | client/src/app/page.tsx:54-70 | The open tab never decides between the loader, nothing and content. |
| DashboardPage.ResetShowsBareZone | client/src/app/page.tsx:50-52 | After a reset, a signed-in user's upload tab shows the upload zone with no error and the current scanning flag. |
| UploadZone.Step | client/src/components/UploadZone.tsx:21-56 | Drag-over lights the zone. Drag-leave and drop turn it off, and nothing else touches it. A drop or selection hands on exactly its first file when it holds one. Only a click opens the chooser, and not while scanning. |
| UploadZone.DropIgnoresScanning | client/src/components/UploadZone.tsx:31-37 | During a scan a drop still forwards its first file, while a click does nothing. |
| UploadZone.Run | client/src/components/UploadZone.tsx:21-56 | A run of events hands on at most one file per event and opens the chooser at most once per event. |
| UploadZone.RunForwardsHanded | client/src/components/UploadZone.tsx:21-56 | The files a run hands on are exactly the first files of the drops and selections that carry one, in order. The chooser opens once per click, or never during a scan. |
| UploadZone.RunDragIsLastDragEvent | client/src/components/UploadZone.tsx:21-37 | The zone ends lit exactly when the last drag-over, drag-leave or drop was a drag-over, and keeps its state when there is none. |
| UploadZone.RunSnoc | client/src/components/UploadZone.tsx:21-56 | One more event extends a run by exactly that event's step. |
| UploadZone.ScanningOnlyGatesChooser | client/src/components/UploadZone.tsx:21-56 | An upload in progress hands on the same files and ends in the same drag state; only the chooser stays shut. |
| DashboardStats.Compute | client/src/components/DashboardStats.tsx:30-64 | The total is the list length. The malignant and benign counts are the numbers of records whose label is exactly that word, and the high, medium and low counts the numbers of records in each confidence band. Malignant, benign and other labels partition the list, so the two counts never exceed the total. The three confidence bands partition it. The pie is Benign then Malignant with their counts. An empty list gives "0.0" and zero counts. Otherwise the average is the mean confidence. |
| DashboardStats.StatsIgnoreOrder | client/src/components/DashboardStats.tsx:31-64 | Any reordering of the scan list gives the same figures. |
| DashboardStats.SumPermutation | client/src/components/DashboardStats.tsx:43-46 | The confidence sum does not depend on the order of the list. |
| DashboardStats.CountPermutation | client/src/components/DashboardStats.tsx:31-37 | A filtered count does not depend on the order of the list. |
| DashboardStats.CountPartition | client/src/components/DashboardStats.tsx:60-64 | When every record satisfies exactly one of three predicates, their counts add up to the list length. |
| HistoryPage.Step | client/src/app/history/page.tsx:40-53 | Confirming a row records it as the target and opens the modal. Only the Delete button dispatches, and exactly when the modal is open, not deleting and the target is truthy; it then dispatches that target and marks deleting. Cancel (line 229) is refused while deleting. The backdrop and close icon (line 224) always close the modal. Neither clears the target, and Cancel never starts or ends a delete. Only settling ends a delete, and it clears everything. A refused Delete click, and a settling with nothing in flight, change nothing. |
| HistoryPage.RunKeepsUiInvariant | client/src/app/history/page.tsx:40-53 | Every event sequence keeps "a delete in flight has a target". |
| HistoryPage.ReachableUiInvariant | client/src/app/history/page.tsx:36-53 | Every state reachable from the page's initial state keeps "a delete in flight has a target". |
| HistoryPage.NoSecondDeleteInFlight | client/src/app/history/page.tsx:228-239 | While a delete is in flight, no sequence of clicks dispatches another until it settles. |
| HistoryPage.ConfirmDuringDeleteIsDropped | client/src/app/history/page.tsx:45-53 | Closing the modal by its backdrop during a delete and confirming another scan dispatches nothing for the second scan. The first delete's settling then closes the modal and forgets the second target. |
| HistoryPage.EmptyIdNeverDeleted | client/src/app/history/page.tsx:46 | An empty-string target opens the modal, but Delete never dispatches it. |
| HistoryPage.ExecuteDelete | client/src/app/history/page.tsx:45-53 | Clicking Delete does nothing unless the modal is open, idle and has a truthy target. Otherwise the modal closes and forgets its target whatever the outcome. With a session, a click that passes the guard sends exactly one DELETE, and the store ends where `deleteScan` of the target leaves it. The records go exactly when the backend confirms, and the rest keep their order. A failure leaves the store as it was. |
| HistoryPage.Render | client/src/app/history/page.tsx:67-112 | The loader shows exactly when history or auth is loading. Next comes the error view, exactly for a non-empty error. Then the empty message, exactly for an empty list. Otherwise the list. |
| HistoryPage.SignedInOpenShowsHistory | client/src/app/history/page.tsx:55-65 | Opening the page with a check that finds a user and a query that succeeds redirects exactly when the store had already resolved with nobody at mount. It shows the fetched rows, or the empty message, and no stale error. |
| HistoryPage.FailedDeleteKeepsView | client/src/app/history/page.tsx:45-53 | A delete the backend refuses leaves the page showing exactly what it showed before. |
| Backend.Classify | backend/app.py:214-215 | Malignant exactly when its probability is strictly larger, so a tie is Benign. The confidence is the chosen class's probability, which is the larger of the two. |
| Backend.FileExtension | backend/app.py:225 | Without a '.', the extension is "jpg". Otherwise it is the lower-cased text after the last '.'. It never contains a '.'. |
| Backend.ExtensionOfJoinedName | backend/app.py:225 | A name ending in '.' plus a dot-free extension yields that extension, lower-cased. |
| Backend.StoragePath | backend/app.py:226 | The storage path starts with the uploader's id and '/'. |
| Backend.StoragePathOfUrl | backend/app.py:305-312 | A path is recovered exactly when the URL contains "mammo-scans/". The result contains no '?' and no marker. |
| Backend.UrlSplitsAtPath | backend/app.py:306-312 | Every URL holding the marker is a marker-free prefix, the marker, the recovered path, and then nothing, a '?' or a second marker. With the round trip, the path is exactly the text from the first marker to the next '?' or marker. |
| Backend.PathEndsAtQueryOrMarker | backend/app.py:311-312 | After the first marker, the text cut at the next marker and then at the first '?' is followed by nothing, a '?' or the next marker. |
| Backend.NoMarkerBeforeFirst | backend/app.py:311 | The text before the first marker holds no marker. |
| Backend.FieldKeepsPath | backend/app.py:311 | A marker-free path followed by nothing, a '?' or a second marker is kept whole by the cut at the next marker, and only a '?' can follow it inside the field. |
| Backend.UrlRoundTrip | backend/app.py:306-312 | A URL made of a marker-free prefix, the marker, a clean path, and then nothing, a query or a second marker with anything after it, gives that path back. |
| Backend.Authenticate | backend/app.py:178-189 | A missing or empty header gets 401 "Missing Authorization header". A header without a space raises outside any handler. An unknown token gets 401 "Invalid token". Otherwise the token's user is authorised. |
| Backend.BearerToken | backend/app.py:182 | The second space-separated field of the header exists exactly when the header contains a space, and it contains no space. |
| Backend.BearerHeaderRoundTrip | backend/app.py:182 | The header the client sends, `Bearer <token>`, yields the token back when the token has no space. |
| Backend.PredictGate | backend/app.py:170-196 | `/predict` checks, in order: the model is loaded (500), the header and token pass, the file part is present (400), the file name is non-empty (400). Only then does it proceed, with the authenticated user. |
| Backend.Predict | backend/app.py:170-271 | A refused request stores and inserts nothing. A failed inference answers 500 with its message. Otherwise the upload targets `<user id>/<unique id>.<extension>`. A row is inserted only for a non-empty image URL and the uploader, and records what the reply reports. An ok reply carries the classified label, its confidence, the image URL and both probabilities. A failed insert answers 500 with its message. |
| Backend.DeleteScan | backend/app.py:273-324 | Checks run in order: model (500), header and token (401), row exists (404), caller owns the first row (403). Only the owner's request past every check removes anything. The removed object is the one the stored URL names. A failed removal answers 500 with its message and deletes no row. A failed row delete answers 500 after the removal. Otherwise the reply is "Scan deleted successfully" and the row is gone. |
| Backend.OwnerDeleteRemovesStoredObject | backend/app.py:304-320 | For an owner whose row's URL is a marker-free prefix, the marker, a clean path and an optional query, the delete removes exactly that path and succeeds. |
| Backend.DeleteRemovesWhatPredictStored | backend/app.py:304-320 | Deleting a scan whose URL is the public URL of what `/predict` stored removes exactly the object `/predict` stored. |
| Backend.RowOutlivesRemovedImage | backend/app.py:304-320 | The image is removed before the row. If the database delete then fails, the reply is a 500, the object is gone and the row stays. |

## Left out

- The vision transformer, image preprocessing, softmax and inference. They are floating-point numerics. `Backend.Predict` takes the two class probabilities, or the error they raised, as a parameter.
- Supabase calls (session lookup, sign-out, table select/insert/delete, storage upload/remove/public URL), `fetch` and JSON parsing, `secure_filename` and `uuid4`. Each is a parameter carrying its answer or its raised error (`Remote`, `HttpReply`, the oracle records in `backend.dfy`). Token validation is a map from accepted tokens to user ids.
- Redux Toolkit, immer and the `createAsyncThunk` machinery. Reducers are pure functions, and a thunk dispatch is its `pending` followed by its settled action.
- Real asynchrony: interleavings are expressed as explicit action or event sequences. A stale read of `isDeleting` by a second click before React re-renders is not modelled.
- PageSession.Open: every history query settles with the same reply, and in its effect-run order. Whether React re-renders between `pending` and the settle is the `pendingRendered` parameter. User objects have no identity in the model: a check that answers with a session is taken to install a new user object, so the effect runs again even if the provider handed back the object already in the store.
- Navigation: `router.push("/login")` is the `redirected` flag. The login and forgot-password pages and the listener that calls `setSession` are not part of this model.
- Presentation components (result card, sidebar, lightbox, glass card, loader, layout), the modal's body-overflow side effect, the theme provider and the styling config.
- Flask routing, CORS, environment loading, logging and the `/health` endpoint. The value the storage `remove` call returns is not inspected by the handler and not modelled.
- DashboardStats.Compute: the average is the exact mean of the confidence scores. The multiplication by 100 and the one-decimal `toFixed` rendering are formatting. Scores are reals, so NaN, for which no confidence band would match, is not modelled.
- Backend.FileExtension: Python's `str.lower` is modelled on ASCII letters only; other characters are kept as they are.
- HistoryPage.Render: the per-row rendering (date, shortened id, risk badge, lightbox) is presentation and is not modelled.

=== FILE: auth_slice.dfy ===
/** The `auth` slice: who is signed in. `checkSession` asks the identity provider for
    the persisted session, `setSession` installs one pushed from outside, `signOut` ends
    it. The reducer is a pure function over a closed set of actions. */
module AuthSlice {
  import opened Common

  datatype AuthState = AuthState(
    user: Option<User>,
    session: Option<Session>,
    loading: bool,
    error: Option<string>)

  /** Before the first `checkSession` settles: nobody is signed in and auth is loading. */
  const Initial: AuthState := AuthState(None, None, true, None)

  /** Every action the auth reducer can receive, including the lifecycle actions of
      the two thunks that have no reducer case (`signOut.pending`, `signOut.rejected`). */
  datatype AuthAction =
    | CheckSessionPending
    | CheckSessionFulfilled(session: Option<Session>)
    | CheckSessionRejected(message: string)
    | SetSession(session: Option<Session>)
    | SignOutPending
    | SignOutFulfilled
    | SignOutRejected(message: string)

  const CheckSessionFallback: string := "Failed to check session"

  /** The state's user is absent exactly when its session is, and otherwise is the
      session's own user. */
  ghost predicate Consistent(s: AuthState) {
    && (s.user.None? <==> s.session.None?)
    && (s.session.Some? ==> s.user.value == s.session.value.user)
  }

  /** `payload?.user ?? null`. */
  function UserOf(session: Option<Session>): Option<User> {
    match session
    case Some(s) => Some(s.user)
    case None => None
  }

  /** The auth reducer. */
  function Reduce(s: AuthState, a: AuthAction): (r: AuthState)
    // user and session move in lock-step
    ensures Consistent(s) ==> Consistent(r)
    // the session is replaced only by a resolved or pushed session, and cleared only by sign-out
    ensures (a.CheckSessionFulfilled? || a.SetSession?) ==> r.session == a.session && !r.loading
    ensures a.SignOutFulfilled? ==> r.session.None? && r.user.None?
    ensures !(a.CheckSessionFulfilled? || a.SetSession? || a.SignOutFulfilled?) ==>
              r.session == s.session && r.user == s.user
    // a failed check keeps the session and records its message, or the fallback when it has none
    ensures a.CheckSessionRejected? ==>
              !r.loading && r.error == Some(OrElse(a.message, CheckSessionFallback)) && r.error.value != []
    // nothing but a failed check writes the error, and nothing clears it
    ensures !a.CheckSessionRejected? ==> r.error == s.error
    ensures s.error.Some? ==> r.error.Some?
    // loading is raised only by a new check
    ensures a.CheckSessionPending? ==> r.loading
    ensures (a.SignOutPending? || a.SignOutFulfilled? || a.SignOutRejected?) ==> r.loading == s.loading
  {
    match a
    case CheckSessionPending => s.(loading := true)
    case CheckSessionFulfilled(p) => s.(session := p, user := UserOf(p), loading := false)
    case CheckSessionRejected(m) => s.(error := Some(OrElse(m, CheckSessionFallback)), loading := false)
    case SetSession(p) => s.(session := p, user := UserOf(p), loading := false)
    case SignOutPending => s
    case SignOutFulfilled => s.(session := None, user := None)
    case SignOutRejected(_) => s
  }

  /** The `checkSession` thunk: the provider's answer (possibly no session) fulfils;
      an error it reports or raises rejects with that error's message. */
  function CheckSessionSettle(reply: Remote<Option<Session>>): (a: AuthAction)
    ensures a.CheckSessionFulfilled? <==> reply.Answer?
    ensures reply.Answer? ==> a.session == reply.value
    ensures reply.Thrown? ==> a == CheckSessionRejected(reply.message)
  {
    match reply
    case Answer(session) => CheckSessionFulfilled(session)
    case Thrown(m) => CheckSessionRejected(m)
  }

  /** The `signOut` thunk: success fulfils, an error rejects. */
  function SignOutSettle(reply: Remote<()>): (a: AuthAction)
    ensures a.SignOutFulfilled? <==> reply.Answer?
    ensures a.SignOutFulfilled? || a.SignOutRejected?
  {
    match reply
    case Answer(_) => SignOutFulfilled
    case Thrown(m) => SignOutRejected(m)
  }

  /** The initial state satisfies the lock-step invariant. */
  lemma InitialConsistent()
    ensures Consistent(Initial)
    ensures Initial.session.None? && Initial.user.None? && Initial.loading && Initial.error.None?
  {
  }

  /** Signing out with nobody signed in changes nothing. */
  lemma SignOutWithoutSessionIsNoOp(s: AuthState)
    requires Consistent(s) && s.session.None?
    ensures Reduce(s, SignOutFulfilled) == s
  {
  }

  /** A failed sign-out has no reducer case: its whole lifecycle leaves the state as is. */
  lemma FailedSignOutChangesNothing(s: AuthState, message: string)
    ensures Reduce(Reduce(s, SignOutPending), SignOutSettle(Thrown(message))) == s
  {
  }
}

=== FILE: backend.dfy ===
/** The pure decisions of the Flask backend: which label and confidence a prediction
    reports, where an upload is stored, how a stored object's path is recovered from its
    public URL, and the order in which `/predict` and `DELETE /scans/<id>` check a
    request. The model itself, storage, the database and token validation are calls
    outside the model; their outcomes are parameters. */
module Backend {
  import opened Common
  import opened Text

  /** The storage bucket's marker inside a public URL. */
  const Marker: string := "mammo-scans/"

  datatype Label = Benign | Malignant

  function LabelName(l: Label): string {
    match l
    case Benign => "Benign"
    case Malignant => "Malignant"
  }

  datatype Prediction = Prediction(verdict: Label, confidence: real)

  /** The reported class and its confidence from the two class probabilities. */
  function Classify(pBenign: real, pMalignant: real): (r: Prediction)
    // strictly more likely malignant, else benign (a tie is benign)
    ensures r.verdict == Malignant <==> pMalignant > pBenign
    // the confidence is the chosen class's own probability ...
    ensures r.confidence == (if r.verdict == Malignant then pMalignant else pBenign)
    // ... which is the larger of the two
    ensures r.confidence >= pBenign && r.confidence >= pMalignant
  {
    if pMalignant > pBenign then Prediction(Malignant, pMalignant) else Prediction(Benign, pBenign)
  }

  /** `filename.rsplit('.', 1)[1].lower() if '.' in filename else 'jpg'`. */
  function FileExtension(filename: string): (ext: string)
    ensures '.' !in ext
    ensures '.' !in filename ==> ext == "jpg"
    // otherwise: the lower-cased text after a '.' that is followed by no other '.'
    ensures '.' in filename ==>
              |ext| < |filename| && filename[|filename| - |ext| - 1] == '.' &&
              '.' !in filename[|filename| - |ext|..] &&
              ext == Lower(filename[|filename| - |ext|..])
  {
    match LastIndexOfChar(filename, '.')
    case Some(i) =>
      LowerKeepsPunctuation(filename[i + 1..], '.');
      Lower(filename[i + 1..])
    case None => "jpg"
  }

  /** Joining a name and an extension with a '.' and extracting the extension again
      gives the extension back, lower-cased. */
  lemma ExtensionOfJoinedName(base: string, ext: string)
    requires '.' !in ext
    ensures FileExtension(base + "." + ext) == Lower(ext)
  {
    var name := base + "." + ext;
    assert name[|base|] == '.';
    var e := FileExtension(name);
    assert name[|name| - |e|..] == ext;
  }

  /** `f"{user_id}/{unique_id}.{file_ext}"`. */
  function StoragePath(userId: string, uniqueId: string, ext: string): (path: string)
    ensures userId + "/" <= path
  {
    userId + "/" + uniqueId + "." + ext
  }

  /** The storage path recovered from a scan's public URL when deleting it:
      `url.split("mammo-scans/")[1].split("?")[0]`, attempted only when the URL is
      non-empty and contains the marker. */
  function StoragePathOfUrl(url: string): (r: Option<string>)
    ensures r.Some? <==> Contains(url, Marker)
    ensures r.Some? ==> '?' !in r.value && !Contains(r.value, Marker)
  {
    if url == "" then None
    else
      match SecondField(url, Marker)
      case Some(part) =>
        var path := FirstField(part, "?");
        NoCharBeforeFirst(part, '?');
        NoMarkerInField(url, part, path);
        Some(path)
      case None => None
  }

  lemma NoCharBeforeFirst(s: string, c: char)
    ensures c !in FirstField(s, [c])
  {
    var r := FirstField(s, [c]);
    if c in r {
      var k :| 0 <= k < |r| && r[k] == c;
      assert s[k..k + 1] == [c];
      assert OccursAt(s, [c], k);
    }
  }

  lemma NoMarkerInField(url: string, part: string, path: string)
    requires SecondField(url, Marker) == Some(part) && path <= part
    ensures !Contains(path, Marker)
  {
    var i := IndexOf(url, Marker).value;
    var rest := url[i + |Marker|..];
    assert part == FirstField(rest, Marker);
    var m := |Marker|;
    assert path == part[..|path|];
    assert part == rest[..|part|];
    forall k: nat | k <= |path|
      ensures !OccursAt(path, Marker, k)
    {
      if k + m <= |path| {
        assert path[k..k + m] == part[k..k + m];
        assert part[k..k + m] == rest[k..k + m];
        assert !OccursAt(rest, Marker, k);
      }
    }
  }

  /** The marker appended to a prefix without it is the URL's first marker. */
  lemma FirstMarkerAfterPrefix(prefix: string, rest: string)
    requires !Contains(prefix, Marker)
    ensures IndexOf(prefix + Marker + rest, Marker) == Some(|prefix|)
  {
    var url := prefix + Marker + rest;
    var m := |Marker|;
    var p := |prefix|;
    assert url[p..p + m] == Marker;
    assert OccursAt(url, Marker, p);
    // an occurrence starting inside the prefix either lies in the prefix, or reaches
    // past it and would need a '/' among the marker's first eleven characters
    forall k: nat | k < p
      ensures !OccursAt(url, Marker, k)
    {
      if k + m <= p {
        assert url[k..k + m] == prefix[k..k + m];
        assert !OccursAt(prefix, Marker, k);
      } else {
        // the marker's closing '/' would fall among its own first eleven characters
        var j := k + m - 1 - p;
        assert 0 <= j < m - 1;
        assert url[k + m - 1] == Marker[j];
        assert Marker[j] != '/';
        assert k + m <= |url| && url[k..k + m][m - 1] == url[k + m - 1];
        assert url[k..k + m][m - 1] != Marker[m - 1];
      }
    }
  }

  /** What may follow the storage path in a URL: nothing, a query, or a second marker. */
  predicate EndsPath(query: string) {
    query == [] || query[0] == '?' || Marker <= query
  }

  /** Up to the next marker, a path followed by a query or a second marker keeps the whole
      path. A second marker cannot overlap the path's end: the marker's only '/' is its
      last character, so no proper suffix of it is also a prefix of it. */
  lemma FieldKeepsPath(path: string, query: string)
    requires !Contains(path, Marker)
    requires EndsPath(query)
    ensures var part := FirstField(path + query, Marker);
            |part| >= |path| && part[..|path|] == path &&
            (|part| > |path| ==> part[|path|] == '?')
  {
    var rest := path + query;
    var m := |Marker|;
    forall k: nat | k < |path|
      ensures !OccursAt(rest, Marker, k)
    {
      if k + m <= |path| {
        assert rest[k..k + m] == path[k..k + m];
        assert !OccursAt(path, Marker, k);
      } else if query != [] && query[0] == '?' {
        // the slice would cover the '?' that starts the query
        assert rest[|path|] == '?';
        assert k + m <= |rest| ==> rest[k..k + m][|path| - k] == '?';
      } else if query != [] {
        // the slice's closing '/' would fall among the second marker's first eleven characters
        assert Marker <= query;
        var j := k + m - 1 - |path|;
        assert 0 <= j < m - 1;
        assert rest[|path| + j] == query[j] == Marker[j];
        assert Marker[j] != '/';
        assert k + m <= |rest| && rest[k..k + m][m - 1] == rest[k + m - 1];
        assert rest[k..k + m][m - 1] != Marker[m - 1];
      }
    }
    var part := FirstField(rest, Marker);
    if query != [] && query[0] != '?' {
      // the second marker ends the field exactly where the path ends
      assert rest[|path|..|path| + m] == Marker;
      assert OccursAt(rest, Marker, |path|);
      assert Contains(rest, Marker);
      assert |part| == |path|;
    }
  }

  /** Cutting at the first '?' gives back a '?'-free path that '?' (or nothing) follows. */
  lemma CutAtQuery(part: string, path: string)
    requires '?' !in path && |part| >= |path| && part[..|path|] == path
    requires |part| > |path| ==> part[|path|] == '?'
    ensures FirstField(part, "?") == path
  {
    var r := FirstField(part, "?");
    OccursAtChar(part, '?', |r|);
    OccursAtChar(part, '?', |path|);
  }

  /** A public URL built by appending a storage path, then nothing, a query or a second
      marker with anything after it, to a prefix without the marker gives that path back. */
  lemma UrlRoundTrip(prefix: string, path: string, query: string)
    requires !Contains(prefix, Marker)
    requires !Contains(path, Marker) && '?' !in path
    requires EndsPath(query)
    ensures StoragePathOfUrl(prefix + Marker + path + query) == Some(path)
  {
    var url := prefix + Marker + path + query;
    assert url == prefix + Marker + (path + query);
    FirstMarkerAfterPrefix(prefix, path + query);
    assert url[|prefix| + |Marker|..] == path + query;
    FieldKeepsPath(path, query);
    CutAtQuery(FirstField(path + query, Marker), path);
  }

  /** The text before the first marker holds no marker. */
  lemma NoMarkerBeforeFirst(url: string, i: nat)
    requires IndexOf(url, Marker) == Some(i)
    ensures i <= |url| && !Contains(url[..i], Marker)
  {
    var m := |Marker|;
    var prefix := url[..i];
    forall k: nat | k <= |prefix|
      ensures !OccursAt(prefix, Marker, k)
    {
      if k + m <= |prefix| {
        assert prefix[k..k + m] == url[k..k + m];
        assert k < i && !OccursAt(url, Marker, k);
      }
    }
  }

  /** After the first marker, the recovered path is followed by nothing, a query or the
      next marker. */
  lemma PathEndsAtQueryOrMarker(rest: string)
    ensures var path := FirstField(FirstField(rest, Marker), "?");
            path <= rest && EndsPath(rest[|path|..])
  {
    var m := |Marker|;
    var part := FirstField(rest, Marker);
    var path := FirstField(part, "?");
    assert path <= rest;
    var query := rest[|path|..];
    if |path| < |part| {
      // the cut was at a '?'
      OccursAtChar(part, '?', |path|);
      assert query[0] == part[|path|];
    } else if |part| < |rest| {
      // the field ended at the next marker
      assert OccursAt(rest, Marker, |part|);
      assert query[..m] == rest[|part|..|part| + m];
    }
  }

  /** The converse of `UrlRoundTrip`: every URL holding the marker is a prefix without
      the marker, the marker, the recovered path, and nothing, a query or a second marker
      after it. With `UrlRoundTrip` this pins the recovered path down: it is the text from
      the first marker up to the next '?' or marker. */
  lemma UrlSplitsAtPath(url: string)
    requires Contains(url, Marker)
    ensures IndexOf(url, Marker).Some? && StoragePathOfUrl(url).Some?
    ensures var i := IndexOf(url, Marker).value;
            var path := StoragePathOfUrl(url).value;
            i + |Marker| + |path| <= |url| &&
            url == url[..i] + Marker + path + url[i + |Marker| + |path|..] &&
            !Contains(url[..i], Marker) && EndsPath(url[i + |Marker| + |path|..])
  {
    var m := |Marker|;
    var i := PathAfterFirstMarker(url);
    var rest := url[i + m..];
    var path := FirstField(FirstField(rest, Marker), "?");
    NoMarkerBeforeFirst(url, i);
    PathEndsAtQueryOrMarker(rest);
    Reassemble(url, i, path, rest[|path|..]);
  }

  /** A URL whose marker at `i` is followed by `path` and `query` is put back together
      from its pieces. */
  lemma Reassemble(url: string, i: nat, path: string, query: string)
    requires i + |Marker| <= |url| && url[i..i + |Marker|] == Marker
    requires url[i + |Marker|..] == path + query
    ensures i + |Marker| + |path| <= |url|
    ensures url[i + |Marker| + |path|..] == query
    ensures url == url[..i] + Marker + path + query
  {
    assert url == url[..i] + url[i..i + |Marker|] + url[i + |Marker|..];
  }

  /** Where the first marker stands, and the path read after it. */
  lemma PathAfterFirstMarker(url: string) returns (i: nat)
    requires Contains(url, Marker)
    ensures IndexOf(url, Marker) == Some(i) && i + |Marker| <= |url|
    ensures StoragePathOfUrl(url) == Some(FirstField(FirstField(url[i + |Marker|..], Marker), "?"))
  {
    i := IndexOf(url, Marker).value;
  }

  /** What a handler answers. */
  datatype Reply =
    | JsonOk(body: Body)
    | JsonError(status: nat, error: string)
      // an exception no handler catches: the framework's own 500 page
    | Unhandled

  datatype Body =
    | PredictionBody(prediction: string, confidence: real, imageUrl: string, rawOutput: seq<real>)
    | MessageBody(message: string)

  datatype AuthResult = Authorized(userId: string) | Denied(reply: Reply)

  /** `auth_header.split(" ")[1]`: the second field of the header split on single spaces;
      `None` is the IndexError of a header without a space. */
  function BearerToken(header: string): (r: Option<string>)
    ensures r.Some? <==> Contains(header, " ")
    ensures r.Some? ==> ' ' !in r.value
  {
    match SecondField(header, " ")
    case Some(token) =>
      var i := IndexOf(header, " ").value;
      NoCharBeforeFirst(header[i + 1..], ' ');
      Some(token)
    case None => None
  }

  /** The header and token checks both endpoints share. `users` maps the tokens the
      identity provider accepts to their user ids; any other token makes it raise. */
  function Authenticate(header: Option<string>, users: map<string, string>): (r: AuthResult)
    ensures (header.None? || header == Some("")) ==> r == Denied(JsonError(401, "Missing Authorization header"))
    ensures header.Some? && header.value != "" ==>
              match BearerToken(header.value)
              case None => r == Denied(Unhandled)
              case Some(token) =>
                if token in users then r == Authorized(users[token])
                else r == Denied(JsonError(401, "Invalid token"))
  {
    match header
    case None => Denied(JsonError(401, "Missing Authorization header"))
    case Some(h) =>
      if h == "" then Denied(JsonError(401, "Missing Authorization header"))
      else
        match BearerToken(h)
        case None => Denied(Unhandled)
        case Some(token) =>
          if token in users then Authorized(users[token])
          else Denied(JsonError(401, "Invalid token"))
  }

  /** The header the client builds, `Bearer <token>`, yields the token back when the
      token has no space. */
  lemma BearerHeaderRoundTrip(token: string)
    requires ' ' !in token
    ensures BearerToken(Bearer(token)) == Some(token)
  {
    var h := Bearer(token);
    assert OccursAt(h, " ", 6);
    forall k: nat | k < 6
      ensures !OccursAt(h, " ", k)
    {
      OccursAtChar(h, ' ', k);
    }
    assert IndexOf(h, " ") == Some(6);
    var rest := h[7..];
    assert rest == token;
    forall k: nat
      ensures !OccursAt(rest, " ", k)
    {
      OccursAtChar(rest, ' ', k);
    }
    assert !Contains(rest, " ");
  }

  /** The multipart `file` field of a request. */
  datatype FilePart = FilePart(filename: string)

  datatype PredictRequest = PredictRequest(authorization: Option<string>, file: Option<FilePart>)

  /** What `/predict` decides before it touches the image: refuse, or go on for this
      user with this file. */
  datatype Gate = Refuse(reply: Reply) | Proceed(userId: string, file: FilePart)

  /** The checks `/predict` runs, in order: model loaded (500), header present (401),
      header with a space (else an unhandled exception), token accepted (401), file
      part present (400), file name non-empty (400). */
  function PredictGate(modelLoaded: bool, req: PredictRequest, users: map<string, string>): (g: Gate)
    ensures !modelLoaded ==> g == Refuse(JsonError(500, "Model not loaded"))
    ensures modelLoaded && Authenticate(req.authorization, users).Denied? ==>
              g == Refuse(Authenticate(req.authorization, users).reply)
    ensures modelLoaded && Authenticate(req.authorization, users).Authorized? ==>
              if req.file.None? then g == Refuse(JsonError(400, "No file part"))
              else if req.file.value.filename == "" then g == Refuse(JsonError(400, "No selected file"))
              else g == Proceed(Authenticate(req.authorization, users).userId, req.file.value)
  {
    if !modelLoaded then Refuse(JsonError(500, "Model not loaded"))
    else
      match Authenticate(req.authorization, users)
      case Denied(reply) => Refuse(reply)
      case Authorized(userId) =>
        match req.file
        case None => Refuse(JsonError(400, "No file part"))
        case Some(f) =>
          if f.filename == "" then Refuse(JsonError(400, "No selected file"))
          else Proceed(userId, f)
  }

  /** The row `/predict` inserts into the `scans` table. */
  datatype ScanRow = ScanRow(
    userId: string,
    originalImageUrl: string,
    predictionLabel: string,
    confidenceScore: real,
    annotatedImageUrl: string)

  /** The outcomes of the calls `/predict` makes outside the model, in call order. */
  datatype PredictOracles = PredictOracles(
    users: map<string, string>,
    secureName: string,                 // secure_filename(file.filename)
    probabilities: Remote<(real, real)>, // preprocessing and inference: (benign, malignant)
    uniqueId: string,                   // uuid4()
    upload: Remote<string>,             // storage upload, then the public URL
    insert: Remote<()>)                 // database insert

  /** What `/predict` answers, where it tried to store the image and what it inserted. */
  datatype PredictOutcome = PredictOutcome(reply: Reply, storedAt: Option<string>, inserted: Option<ScanRow>)

  /** The `/predict` handler. */
  function Predict(modelLoaded: bool, req: PredictRequest, o: PredictOracles): (r: PredictOutcome)
    // a refused request stores and inserts nothing
    ensures PredictGate(modelLoaded, req, o.users).Refuse? ==>
              r == PredictOutcome(PredictGate(modelLoaded, req, o.users).reply, None, None)
    // a failing inference is reported with its message, before anything is stored
    ensures PredictGate(modelLoaded, req, o.users).Proceed? && o.probabilities.Thrown? ==>
              r == PredictOutcome(JsonError(500, o.probabilities.message), None, None)
    // the image goes under the uploader's own folder
    ensures r.storedAt.Some? ==>
              PredictGate(modelLoaded, req, o.users).Proceed? &&
              PredictGate(modelLoaded, req, o.users).userId + "/" <= r.storedAt.value
    // a row is inserted only for a non-empty image URL, and then for the uploader
    ensures r.inserted.Some? ==>
              o.upload.Answer? && o.upload.value != "" && o.insert.Answer? &&
              r.inserted.value.originalImageUrl == o.upload.value &&
              r.inserted.value.userId == PredictGate(modelLoaded, req, o.users).userId
    // past the checks, with an inference, the prediction is answered unless the insert fails
    ensures PredictGate(modelLoaded, req, o.users).Proceed? && o.probabilities.Answer? ==>
              r.storedAt.Some? &&
              (r.inserted.Some? <==> o.upload.Answer? && o.upload.value != "" && o.insert.Answer?) &&
              (r.reply.JsonOk? <==> !(o.upload.Answer? && o.upload.value != "" && o.insert.Thrown?))
    // past the checks, the image goes to the uploader's path, and an ok reply reports the
    // classification of the two probabilities, the image URL (empty when the upload
    // failed) and the probabilities themselves; a failing insert is a 500 with its message
    ensures var g := PredictGate(modelLoaded, req, o.users);
            g.Proceed? && o.probabilities.Answer? ==>
              var pb := o.probabilities.value.0;
              var pm := o.probabilities.value.1;
              var imageUrl := if o.upload.Answer? then o.upload.value else "";
              r.storedAt == Some(StoragePath(g.userId, o.uniqueId, FileExtension(o.secureName))) &&
              (r.reply.JsonOk? ==>
                 r.reply.body == PredictionBody(LabelName(Classify(pb, pm).verdict), Classify(pb, pm).confidence,
                                                imageUrl, [pb, pm])) &&
              (imageUrl != "" && o.insert.Thrown? ==> r.reply == JsonError(500, o.insert.message))
    // the row records what the reply reports
    ensures r.inserted.Some? ==>
              r.reply.JsonOk? && r.reply.body.PredictionBody? &&
              r.reply.body.prediction == r.inserted.value.predictionLabel &&
              r.reply.body.confidence == r.inserted.value.confidenceScore &&
              r.reply.body.imageUrl == r.inserted.value.originalImageUrl
  {
    match PredictGate(modelLoaded, req, o.users)
    case Refuse(reply) => PredictOutcome(reply, None, None)
    case Proceed(userId, _) =>
      match o.probabilities
      case Thrown(m) => PredictOutcome(JsonError(500, m), None, None)
      case Answer((pBenign, pMalignant)) =>
        var p := Classify(pBenign, pMalignant);
        var path := StoragePath(userId, o.uniqueId, FileExtension(o.secureName));
        var imageUrl := if o.upload.Answer? then o.upload.value else "";
        var body := PredictionBody(LabelName(p.verdict), p.confidence, imageUrl, [pBenign, pMalignant]);
        if imageUrl != "" then
          var row := ScanRow(userId, imageUrl, LabelName(p.verdict), p.confidence, imageUrl);
          match o.insert
          case Thrown(m) => PredictOutcome(JsonError(500, m), Some(path), None)
          case Answer(_) => PredictOutcome(JsonOk(body), Some(path), Some(row))
        else
          PredictOutcome(JsonOk(body), Some(path), None)
  }

  /** A row of the `scans` table as `DELETE /scans/<id>` reads it; either field may be
      missing. */
  datatype StoredScan = StoredScan(ownerId: Option<string>, originalImageUrl: Option<string>)

  /** The outcomes of the calls `DELETE /scans/<id>` makes outside the model, in call order. */
  datatype DeleteOracles = DeleteOracles(
    users: map<string, string>,
    select: Remote<seq<StoredScan>>, // the rows with that id
    remove: Remote<()>,              // storage removal
    delete: Remote<()>)              // database delete

  /** What the handler answers, which storage object it removed and whether the row went. */
  datatype DeleteOutcome = DeleteOutcome(reply: Reply, removedPath: Option<string>, rowDeleted: bool)

  /** The caller owns the first row the query returned. */
  predicate OwnsFirstRow(rows: seq<StoredScan>, userId: string) {
    |rows| > 0 && rows[0].ownerId == Some(userId)
  }

  /** The `DELETE /scans/<id>` handler. Checks run in order: model loaded (500), header
      present (401), header with a space (else unhandled), token accepted (401), row
      exists (404), caller owns it (403); then the image and the row are deleted. */
  function DeleteScan(modelLoaded: bool, authorization: Option<string>, o: DeleteOracles): (r: DeleteOutcome)
    ensures !modelLoaded ==> r == DeleteOutcome(JsonError(500, "Model not loaded"), None, false)
    ensures modelLoaded && Authenticate(authorization, o.users).Denied? ==>
              r == DeleteOutcome(Authenticate(authorization, o.users).reply, None, false)
    ensures modelLoaded && Authenticate(authorization, o.users).Authorized? ==>
              match o.select
              case Thrown(m) => r == DeleteOutcome(JsonError(500, m), None, false)
              case Answer(rows) =>
                if |rows| == 0 then r == DeleteOutcome(JsonError(404, "Scan not found or access denied"), None, false)
                else if !OwnsFirstRow(rows, Authenticate(authorization, o.users).userId) then
                  r == DeleteOutcome(JsonError(403, "Unauthorized"), None, false)
                else
                  // the owner's request: the image named by a truthy URL is removed first,
                  // then the row; the first call that raises decides the 500
                  var url := rows[0].originalImageUrl;
                  var path := if url.Some? then StoragePathOfUrl(url.value) else None;
                  if path.Some? && o.remove.Thrown? then
                    r == DeleteOutcome(JsonError(500, o.remove.message), None, false)
                  else if o.delete.Thrown? then
                    r == DeleteOutcome(JsonError(500, o.delete.message), path, false)
                  else
                    r == DeleteOutcome(JsonOk(MessageBody("Scan deleted successfully")), path, true)
    // only the owner's request, past every check, removes anything
    ensures (r.rowDeleted || r.removedPath.Some?) ==>
              modelLoaded && Authenticate(authorization, o.users).Authorized? && o.select.Answer? &&
              OwnsFirstRow(o.select.value, Authenticate(authorization, o.users).userId)
    // the object removed is the one the stored URL names
    ensures r.removedPath.Some? ==>
              o.select.Answer? && o.select.value[0].originalImageUrl.Some? &&
              Some(r.removedPath.value) == StoragePathOfUrl(o.select.value[0].originalImageUrl.value)
    // success is reported exactly when the row was deleted
    ensures r.reply == JsonOk(MessageBody("Scan deleted successfully")) <==> r.rowDeleted
    ensures r.reply.JsonOk? ==> r.rowDeleted
  {
    if !modelLoaded then DeleteOutcome(JsonError(500, "Model not loaded"), None, false)
    else
      match Authenticate(authorization, o.users)
      case Denied(reply) => DeleteOutcome(reply, None, false)
      case Authorized(userId) =>
        match o.select
        case Thrown(m) => DeleteOutcome(JsonError(500, m), None, false)
        case Answer(rows) =>
          if |rows| == 0 then DeleteOutcome(JsonError(404, "Scan not found or access denied"), None, false)
          else if !OwnsFirstRow(rows, userId) then DeleteOutcome(JsonError(403, "Unauthorized"), None, false)
          else
            var path := if rows[0].originalImageUrl.Some? then StoragePathOfUrl(rows[0].originalImageUrl.value) else None;
            match (path, o.remove)
            case (Some(_), Thrown(m)) => DeleteOutcome(JsonError(500, m), None, false)
            case _ =>
              match o.delete
              case Thrown(m) => DeleteOutcome(JsonError(500, m), path, false)
              case Answer(_) => DeleteOutcome(JsonOk(MessageBody("Scan deleted successfully")), path, true)
  }

  /** The image is removed before the row: when the database delete then fails, the
      request reports a 500 while the row survives pointing at an object that is gone. */
  lemma RowOutlivesRemovedImage(authorization: Option<string>, o: DeleteOracles, url: string, m: string)
    requires Authenticate(authorization, o.users).Authorized?
    requires o.select.Answer? && OwnsFirstRow(o.select.value, Authenticate(authorization, o.users).userId)
    requires o.select.value[0].originalImageUrl == Some(url) && Contains(url, Marker)
    requires o.remove.Answer? && o.delete == Thrown(m)
    ensures var r := DeleteScan(true, authorization, o);
            r.reply == JsonError(500, m) && r.removedPath == StoragePathOfUrl(url) && r.removedPath.Some? && !r.rowDeleted
  {
  }
  /** An owner's delete of a row whose URL is a prefix without the marker, the marker, a
      clean storage path and an optional query removes exactly that storage object and
      then the row. */
  lemma OwnerDeleteRemovesStoredObject(authorization: Option<string>, o: DeleteOracles,
                                       prefix: string, path: string, query: string)
    requires Authenticate(authorization, o.users).Authorized?
    requires o.select.Answer? && OwnsFirstRow(o.select.value, Authenticate(authorization, o.users).userId)
    requires o.select.value[0].originalImageUrl == Some(prefix + Marker + path + query)
    requires !Contains(prefix, Marker) && !Contains(path, Marker) && '?' !in path
    requires EndsPath(query)
    requires o.remove.Answer? && o.delete.Answer?
    ensures DeleteScan(true, authorization, o) ==
            DeleteOutcome(JsonOk(MessageBody("Scan deleted successfully")), Some(path), true)
  {
    UrlRoundTrip(prefix, path, query);
    assert prefix + Marker + path + query != "";
  }

  /** Upload, then delete: when the public URL `/predict` stored is the storage path behind
      the bucket's marker, the owner's later delete of that row removes exactly the object
      `/predict` uploaded. */
  lemma DeleteRemovesWhatPredictStored(req: PredictRequest, o: PredictOracles, prefix: string, query: string,
                                       authorization: Option<string>, d: DeleteOracles)
    requires Predict(true, req, o).inserted.Some? && Predict(true, req, o).storedAt.Some?
    requires o.upload == Answer(prefix + Marker + Predict(true, req, o).storedAt.value + query)
    requires !Contains(prefix, Marker) && EndsPath(query)
    requires !Contains(Predict(true, req, o).storedAt.value, Marker) && '?' !in Predict(true, req, o).storedAt.value
    requires Authenticate(authorization, d.users) == Authorized(Predict(true, req, o).inserted.value.userId)
    requires d.select == Answer([StoredScan(Some(Predict(true, req, o).inserted.value.userId),
                                            Some(Predict(true, req, o).inserted.value.originalImageUrl))])
    requires d.remove.Answer? && d.delete.Answer?
    ensures DeleteScan(true, authorization, d).removedPath == Predict(true, req, o).storedAt
    ensures DeleteScan(true, authorization, d).rowDeleted
  {
    var r := Predict(true, req, o);
    OwnerDeleteRemovesStoredObject(authorization, d, prefix, r.storedAt.value, query);
  }
}

=== FILE: common.dfy ===
/** Types shared by the client's three state slices, its pages and the backend:
    optional values, the signed-in identity, the outcome of a remote call and the
    remote calls the client can issue. */
module Common {

  /** The client's `T | null`. */
  datatype Option<+T> = None | Some(value: T) {

    /** The wrapped value, or `default` when there is none. */
    function GetOr(default: T): T {
      match this
      case Some(v) => v
      case None => default
    }
  }

  /** A signed-in user as the identity provider reports it. */
  datatype User = User(id: string, email: string)

  /** A live session: an opaque bearer credential plus the user it belongs to.
      A session always carries its user. */
  datatype Session = Session(accessToken: string, user: User)

  /** The outcome of a call into code outside the model (identity provider, database,
      storage, inference): either the answer, or the message of the exception it raised.
      A missing message is the empty string. */
  datatype Remote<+T> = Answer(value: T) | Thrown(message: string)

  /** The JavaScript `message || fallback`: an empty (missing) message is falsy. */
  function OrElse(message: string, fallback: string): string {
    if message != "" then message else fallback
  }

  /** The image a user picked; only its name matters to the model. */
  datatype File = File(name: string)

  /** The base address of the backend when the environment does not name one. */
  const DefaultApiUrl: string := "http://localhost:5000"

  /** `process.env.NEXT_PUBLIC_API_URL || "http://localhost:5000"`. */
  function ApiUrl(env: string): string {
    OrElse(env, DefaultApiUrl)
  }

  /** The `Authorization` header value the client sends. */
  function Bearer(token: string): string {
    "Bearer " + token
  }

  /** A remote call the client issues. */
  datatype Call =
    | GetSession
    | SignOutCall
    | SelectScans
    | PostPredict(url: string, authorization: string, file: File)
    | DeleteRequest(url: string, authorization: string)

  /** The result of `fetch`: it either rejects (transport failure), or yields a
      response whose status is ok or not. The body of an ok response is parsed as the
      payload; the body of a failed one is parsed for its `error` field ("" when absent).
      Parsing the body can itself throw. */
  datatype HttpReply<+T> =
    | TransportFailure(message: string)
    | OkResponse(payload: Remote<T>)
    | FailedResponse(errorField: Remote<string>)
}

=== FILE: dashboard_page.dfy ===
/** The dashboard page: it gates on the session like every page, uploads the file the
    upload zone hands it and then refreshes the history, lets the user clear the last
    outcome, and chooses between the loader, nothing, the overview and the upload tab. */
module DashboardPage {
  import opened Common
  import ScanSlice
  import HistorySlice
  import Store
  import UploadZone
  import PageSession

  /** `handleFileSelect`: await the upload, then refresh the history if the user the
      handler was rendered with is present, whatever the upload's outcome. */
  function HandleFileSelect(s: Store.RootState, env: string, file: File, renderedUser: Option<User>,
                            uploadReply: HttpReply<ScanSlice.ScanResult>,
                            historyReply: Remote<seq<HistorySlice.ScanRecord>>): (r: Store.Step)
    ensures r.state.auth == s.auth
    // the history is asked for exactly when a user is present
    ensures SelectScans in r.calls <==> renderedUser.Some?
    ensures renderedUser.None? ==> r.state.history == s.history
    ensures renderedUser.Some? && historyReply.Answer? ==> r.state.history.scans == historyReply.value
    // the upload is over, with exactly one of result and error
    ensures !r.state.scan.scanning
    ensures r.state.scan.result.Some? <==> r.state.scan.error.None?
  {
    var uploaded := Store.UploadScan(s, env, file, uploadReply);
    if renderedUser.Some? then
      var fetched := Store.FetchHistory(uploaded.state, historyReply);
      Store.Step(fetched.state, uploaded.calls + fetched.calls)
    else uploaded
  }

  /** The refresh after an upload does not depend on whether the upload succeeded. */
  lemma RefreshIgnoresUploadOutcome(s: Store.RootState, env: string, file: File, renderedUser: Option<User>,
                                    one: HttpReply<ScanSlice.ScanResult>, other: HttpReply<ScanSlice.ScanResult>,
                                    historyReply: Remote<seq<HistorySlice.ScanRecord>>)
    ensures HandleFileSelect(s, env, file, renderedUser, one, historyReply).state.history ==
            HandleFileSelect(s, env, file, renderedUser, other, historyReply).state.history
    ensures (SelectScans in HandleFileSelect(s, env, file, renderedUser, one, historyReply).calls) ==
            (SelectScans in HandleFileSelect(s, env, file, renderedUser, other, historyReply).calls)
  {
  }

  /** `resetScan`: only `clearScan` is dispatched. */
  function ResetScan(s: Store.RootState): (r: Store.RootState)
    ensures r.auth == s.auth && r.history == s.history
    ensures r.scan.result.None? && r.scan.error.None? && r.scan.scanning == s.scan.scanning
  {
    Store.Dispatch(s, Store.Scan(ScanSlice.ClearScan))
  }

  datatype Tab = Overview | NewScan

  /** What the page renders. */
  datatype View =
    | Loader
    | Nothing
    | Stats(scans: seq<HistorySlice.ScanRecord>)
    | ResultPanel(result: ScanSlice.ScanResult)
      // the error banner (if any) above the upload zone
    | UploadPanel(error: Option<string>, zoneScanning: bool)

  /** The page's render decision. A displayed error is a non-empty string. */
  function Render(s: Store.RootState, tab: Tab): (v: View)
    ensures v.Loader? <==>
              s.auth.loading || (s.auth.user.Some? && s.history.loading && |s.history.scans| == 0)
    ensures v.Nothing? <==> !s.auth.loading && s.auth.user.None?
    // the page never shows anything but the loader to an absent user
    ensures s.auth.user.None? ==> v.Loader? || v.Nothing?
    ensures v.Stats? ==> tab.Overview? && v.scans == s.history.scans
    ensures !v.Loader? && !v.Nothing? && tab.Overview? ==> v == Stats(s.history.scans)
    // in the upload tab a result hides both the error and the zone
    ensures v.ResultPanel? <==> !v.Loader? && !v.Nothing? && tab.NewScan? && s.scan.result.Some?
    ensures v.ResultPanel? ==> v.result == s.scan.result.value
    ensures v.UploadPanel? ==>
              s.scan.result.None? && v.zoneScanning == s.scan.scanning &&
              (v.error.Some? <==> s.scan.error.Some? && s.scan.error.value != "") &&
              (v.error.Some? ==> v.error == s.scan.error)
  {
    if s.auth.loading || (s.auth.user.Some? && s.history.loading && |s.history.scans| == 0) then Loader
    else if s.auth.user.None? then Nothing
    else if tab.Overview? then Stats(s.history.scans)
    else if s.scan.result.Some? then ResultPanel(s.scan.result.value)
    else
      var shown: Option<string> := if s.scan.error.Some? && s.scan.error.value != "" then s.scan.error else None;
      UploadPanel(shown, s.scan.scanning)
  }

  /** A file dropped while a scan is running still reaches `handleFileSelect`, which
      starts a second upload: the store shows `scanning` until one of the two completes,
      and the first completion ends it for both. */
  lemma DropDuringScanStartsSecondUpload(s: Store.RootState, dragActive: bool, files: seq<File>,
                                         early: ScanSlice.ScanResult)
    requires s.scan.scanning && |files| > 0
    ensures UploadZone.Step(dragActive, s.scan.scanning, UploadZone.Drop(Some(files))).forwarded == Some(files[0])
    ensures var second := Store.Dispatch(s, Store.Scan(ScanSlice.UploadPending));
            var settled := Store.Dispatch(second, Store.Scan(ScanSlice.UploadFulfilled(early)));
            second.scan.scanning && !settled.scan.scanning && settled.scan.result == Some(early)
  {
  }

  /** In the upload tab, once an upload has settled for a signed-in user whose history
      is on screen, the page shows either the result or the upload zone with the error. */
  lemma UploadTabAfterUpload(s: Store.RootState, env: string, file: File,
                             uploadReply: HttpReply<ScanSlice.ScanResult>)
    requires s.auth.user.Some? && !s.auth.loading && !s.history.loading
    ensures var r := Store.UploadScan(s, env, file, uploadReply).state;
            var v := Render(r, NewScan);
            (v.ResultPanel? && v.result == r.scan.result.value) ||
            (v.UploadPanel? && !v.zoneScanning && r.scan.error.Some?)
  {
  }

  /** The page's gate agrees with the session effect: it renders nothing exactly when the
      effect sends the browser to the login page, and shows content only when the effect
      asks for the history. */
  lemma RenderFollowsSessionEffect(s: Store.RootState, tab: Tab)
    ensures Render(s, tab).Nothing? <==>
              PageSession.SessionEffect(s.auth.user, s.auth.loading).RedirectToLogin?
    ensures !Render(s, tab).Loader? && !Render(s, tab).Nothing? ==>
              PageSession.SessionEffect(s.auth.user, s.auth.loading).RequestHistory?
  {
  }

  /** Which tab is open never decides between the loader, nothing and content. */
  lemma GateIgnoresTab(s: Store.RootState)
    ensures Render(s, Overview).Loader? == Render(s, NewScan).Loader?
    ensures Render(s, Overview).Nothing? == Render(s, NewScan).Nothing?
  {
  }

  /** After `resetScan`, a signed-in user's upload tab shows the bare upload zone. */
  lemma ResetShowsBareZone(s: Store.RootState)
    requires s.auth.user.Some? && !s.auth.loading && !(s.history.loading && |s.history.scans| == 0)
    ensures Render(ResetScan(s), NewScan) == UploadPanel(None, s.scan.scanning)
  {
  }
}

=== FILE: dashboard_stats.dfy ===
/** The figures the dashboard's overview shows for the cached scan list: how many scans,
    how many of each label, the mean confidence, and how many fall in each confidence
    band. Formatting the mean as a percentage with one decimal is not modelled. */
module DashboardStats {
  import HistorySlice

  type Record = HistorySlice.ScanRecord

  /** The sum of `f` over the list. */
  function Sum(scans: seq<Record>, f: Record -> real): real {
    if |scans| == 0 then 0.0 else f(scans[0]) + Sum(scans[1..], f)
  }

  /** `scans.filter(p).length`. */
  function CountWhere(scans: seq<Record>, p: Record -> bool): nat {
    if |scans| == 0 then 0 else (if p(scans[0]) then 1 else 0) + CountWhere(scans[1..], p)
  }

  function Indicator(p: Record -> bool): Record -> real {
    x => if p(x) then 1.0 else 0.0
  }

  lemma {:induction false} CountIsSumOfIndicator(scans: seq<Record>, p: Record -> bool)
    ensures CountWhere(scans, p) as real == Sum(scans, Indicator(p))
    decreases |scans|
  {
    if |scans| > 0 {
      CountIsSumOfIndicator(scans[1..], p);
    }
  }

  lemma {:induction false} SumConcat(a: seq<Record>, b: seq<Record>, f: Record -> real)
    ensures Sum(a + b, f) == Sum(a, f) + Sum(b, f)
    decreases |a|
  {
    if |a| == 0 {
      assert a + b == b;
    } else {
      assert (a + b)[1..] == a[1..] + b;
      SumConcat(a[1..], b, f);
    }
  }

  /** A sum does not depend on the order of the list. */
  lemma {:induction false} SumPermutation(a: seq<Record>, b: seq<Record>, f: Record -> real)
    requires multiset(a) == multiset(b)
    ensures Sum(a, f) == Sum(b, f)
    decreases |a|
  {
    if |a| == 0 {
      assert |b| == |multiset(b)| == 0;
    } else {
      var x := a[0];
      assert x in multiset(b);
      var j :| 0 <= j < |b| && b[j] == x;
      var rest := b[..j] + b[j + 1..];
      assert b == b[..j] + [x] + b[j + 1..];
      assert a == [x] + a[1..];
      assert multiset(b) == multiset(b[..j]) + multiset([x]) + multiset(b[j + 1..]);
      assert multiset(a) == multiset([x]) + multiset(a[1..]);
      assert multiset(rest) == multiset(b[..j]) + multiset(b[j + 1..]);
      assert multiset(a[1..]) == multiset(a) - multiset([x]);
      assert multiset(rest) == multiset(b) - multiset([x]);
      SumPermutation(a[1..], rest, f);
      SumConcat(b[..j] + [x], b[j + 1..], f);
      SumConcat(b[..j], [x], f);
      SumConcat(b[..j], b[j + 1..], f);
      assert Sum([x], f) == f(x) + Sum([], f);
    }
  }

  /** Counts do not depend on the order of the list. */
  lemma CountPermutation(a: seq<Record>, b: seq<Record>, p: Record -> bool)
    requires multiset(a) == multiset(b)
    ensures CountWhere(a, p) == CountWhere(b, p)
  {
    CountIsSumOfIndicator(a, p);
    CountIsSumOfIndicator(b, p);
    SumPermutation(a, b, Indicator(p));
  }

  /** When every record satisfies exactly one of three predicates, their counts add up
      to the length of the list. */
  lemma {:induction false} CountPartition(scans: seq<Record>, p: Record -> bool, q: Record -> bool, r: Record -> bool)
    requires forall x :: (if p(x) then 1 else 0) + (if q(x) then 1 else 0) + (if r(x) then 1 else 0) == 1
    ensures CountWhere(scans, p) + CountWhere(scans, q) + CountWhere(scans, r) == |scans|
    decreases |scans|
  {
    if |scans| > 0 {
      CountPartition(scans[1..], p, q, r);
      var x := scans[0];
      assert (if p(x) then 1 else 0) + (if q(x) then 1 else 0) + (if r(x) then 1 else 0) == 1;
    }
  }

  predicate IsMalignant(x: Record) { x.predictionLabel == "Malignant" }
  predicate IsBenign(x: Record) { x.predictionLabel == "Benign" }
  predicate IsOtherLabel(x: Record) { !IsMalignant(x) && !IsBenign(x) }

  predicate IsHigh(x: Record) { x.confidenceScore >= 0.9 }
  predicate IsMedium(x: Record) { x.confidenceScore >= 0.8 && x.confidenceScore < 0.9 }
  predicate IsLow(x: Record) { x.confidenceScore < 0.8 }

  function Confidence(x: Record): real { x.confidenceScore }

  /** The mean confidence, or the literal "0.0" shown for an empty list. */
  datatype Average = ZeroText | Mean(value: real)

  /** One pie slice: a label and how many scans carry it. */
  datatype Slice = Slice(name: string, value: nat)

  datatype Stats = Stats(
    total: nat,
    malignant: nat,
    benign: nat,
    average: Average,
    pie: seq<Slice>,
    high: nat,
    medium: nat,
    low: nat)

  /** The overview's figures for a scan list. */
  function Compute(scans: seq<Record>): (r: Stats)
    ensures r.total == |scans|
    // each count is the number of records its filter keeps
    ensures r.malignant == CountWhere(scans, IsMalignant) && r.benign == CountWhere(scans, IsBenign)
    ensures r.high == CountWhere(scans, IsHigh) && r.medium == CountWhere(scans, IsMedium) &&
            r.low == CountWhere(scans, IsLow)
    // labels other than the two are counted in neither
    ensures r.malignant + r.benign + CountWhere(scans, IsOtherLabel) == r.total
    ensures r.malignant + r.benign <= r.total
    // the three confidence bands split the list
    ensures r.high + r.medium + r.low == r.total
    // the pie shows Benign then Malignant with their counts
    ensures r.pie == [Slice("Benign", r.benign), Slice("Malignant", r.malignant)]
    // an empty list shows "0.0" and all counts zero
    ensures |scans| == 0 ==> r.average == ZeroText
    ensures |scans| == 0 ==> r.malignant == 0 && r.benign == 0 && r.high == 0 && r.medium == 0 && r.low == 0
    ensures |scans| > 0 ==> r.average == Mean(Sum(scans, Confidence) / (|scans| as real))
  {
    var malignant := CountWhere(scans, IsMalignant);
    var benign := CountWhere(scans, IsBenign);
    CountPartition(scans, IsMalignant, IsBenign, IsOtherLabel);
    CountPartition(scans, IsHigh, IsMedium, IsLow);
    Stats(
      |scans|,
      malignant,
      benign,
      if |scans| > 0 then Mean(Sum(scans, Confidence) / (|scans| as real)) else ZeroText,
      [Slice("Benign", benign), Slice("Malignant", malignant)],
      CountWhere(scans, IsHigh),
      CountWhere(scans, IsMedium),
      CountWhere(scans, IsLow))
  }

  /** Reordering the scan list changes none of the figures. */
  lemma StatsIgnoreOrder(a: seq<Record>, b: seq<Record>)
    requires multiset(a) == multiset(b)
    ensures Compute(a) == Compute(b)
  {
    assert |a| == |multiset(a)| == |multiset(b)| == |b|;
    CountPermutation(a, b, IsMalignant);
    CountPermutation(a, b, IsBenign);
    CountPermutation(a, b, IsHigh);
    CountPermutation(a, b, IsMedium);
    CountPermutation(a, b, IsLow);
    SumPermutation(a, b, Confidence);
  }
}

=== FILE: history_page.dfy ===
/** The history page: the same session gate as the dashboard, a view chosen from the
    history and auth slices, and the delete confirmation: the trash button opens a modal,
    its Delete button dispatches `deleteScan` once, and the modal closes and forgets its
    target when that dispatch settles, whatever its outcome. */
module HistoryPage {
  import opened Common
  import AuthSlice
  import HistorySlice
  import Store
  import PageSession

  /** The page's local state for deleting: `scanToDelete`, `deleteModalOpen` and
      `isDeleting`. */
  datatype DeleteUi = DeleteUi(target: Option<string>, modalOpen: bool, deleting: bool)

  const InitialUi: DeleteUi := DeleteUi(None, false, false)

  /** A JavaScript truthiness test of `scanToDelete`: null and the empty string fail it. */
  predicate Truthy(target: Option<string>) {
    target.Some? && target.value != ""
  }

  datatype UiEvent =
      // the trash button of one row
    | ConfirmDelete(id: string)
      // the modal's Cancel button, disabled while deleting
    | CancelClick
      // the modal's backdrop or its close icon, never disabled
    | CloseModal
      // the modal's Delete button, disabled while deleting
    | DeleteClick
      // the awaited `deleteScan` dispatch returning
    | DeleteSettled

  /** The state after one event and the id whose deletion it dispatched, if any. */
  datatype UiStep = UiStep(ui: DeleteUi, dispatched: Option<string>)

  /** Whether the modal's two buttons are disabled. */
  predicate ButtonsDisabled(ui: DeleteUi) {
    ui.deleting
  }

  /** One event. A click on a disabled or hidden button does nothing. */
  function Step(ui: DeleteUi, e: UiEvent): (r: UiStep)
    // only the Delete button dispatches, and only on a ready, truthy target
    ensures r.dispatched.Some? <==>
              e.DeleteClick? && ui.modalOpen && !ButtonsDisabled(ui) && Truthy(ui.target)
    ensures r.dispatched.Some? ==> r.dispatched == ui.target && r.ui == ui.(deleting := true)
    // the delete in flight is only ended by its own settling
    ensures ui.deleting && !e.DeleteSettled? ==> r.ui.deleting
    ensures e.DeleteSettled? ==> !r.ui.deleting
    ensures e.DeleteSettled? && ui.deleting ==> r.ui == InitialUi
    // Cancel is refused while deleting; the backdrop and the close icon are not
    ensures e.CancelClick? ==> (r.ui.modalOpen <==> ui.modalOpen && ui.deleting)
    ensures e.CloseModal? ==> !r.ui.modalOpen && r.ui.deleting == ui.deleting
    ensures (e.CancelClick? || e.CloseModal?) ==> r.ui.target == ui.target
    ensures e.ConfirmDelete? ==> r.ui == ui.(target := Some(e.id), modalOpen := true)
    // a refused Delete click and a settling with nothing in flight change nothing
    ensures e.DeleteClick? && r.dispatched.None? ==> r.ui == ui
    ensures e.DeleteSettled? && !ui.deleting ==> r.ui == ui
    ensures e.CancelClick? ==> r.ui.deleting == ui.deleting
  {
    match e
    case ConfirmDelete(id) => UiStep(ui.(target := Some(id), modalOpen := true), None)
    case CancelClick =>
      if ui.modalOpen && !ButtonsDisabled(ui) then UiStep(ui.(modalOpen := false), None)
      else UiStep(ui, None)
    case CloseModal =>
      if ui.modalOpen then UiStep(ui.(modalOpen := false), None) else UiStep(ui, None)
    case DeleteClick =>
      if ui.modalOpen && !ButtonsDisabled(ui) && Truthy(ui.target) then
        UiStep(ui.(deleting := true), ui.target)
      else UiStep(ui, None)
    case DeleteSettled =>
      // there is no continuation to run unless a delete was started
      if ui.deleting then UiStep(DeleteUi(None, false, false), None) else UiStep(ui, None)
  }

  /** A sequence of events: the final state and the ids dispatched, in order. */
  datatype UiRun = UiRun(ui: DeleteUi, dispatched: seq<string>)

  function RunUi(ui: DeleteUi, events: seq<UiEvent>): UiRun
    decreases |events|
  {
    if |events| == 0 then UiRun(ui, [])
    else
      var first := Step(ui, events[0]);
      var rest := RunUi(first.ui, events[1..]);
      UiRun(rest.ui, (if first.dispatched.Some? then [first.dispatched.value] else []) + rest.dispatched)
  }

  /** The page keeps a target for as long as a delete is in flight. */
  ghost predicate UiInvariant(ui: DeleteUi) {
    ui.deleting ==> ui.target.Some?
  }

  lemma {:induction false} RunKeepsUiInvariant(ui: DeleteUi, events: seq<UiEvent>)
    requires UiInvariant(ui)
    ensures UiInvariant(RunUi(ui, events).ui)
    decreases |events|
  {
    if |events| > 0 {
      RunKeepsUiInvariant(Step(ui, events[0]).ui, events[1..]);
    }
  }

  lemma ReachableUiInvariant(events: seq<UiEvent>)
    ensures UiInvariant(RunUi(InitialUi, events).ui)
  {
    RunKeepsUiInvariant(InitialUi, events);
  }

  /** While a delete is in flight, no event but its settling can dispatch a second one,
      whatever the user clicks. */
  lemma {:induction false} NoSecondDeleteInFlight(ui: DeleteUi, events: seq<UiEvent>)
    requires ui.deleting
    requires forall i :: 0 <= i < |events| ==> !events[i].DeleteSettled?
    ensures RunUi(ui, events).dispatched == []
    ensures RunUi(ui, events).ui.deleting
    decreases |events|
  {
    if |events| > 0 {
      var first := Step(ui, events[0]);
      assert !events[0].DeleteSettled?;
      assert forall i :: 0 <= i < |events[1..]| ==> events[1..][i] == events[i + 1];
      NoSecondDeleteInFlight(first.ui, events[1..]);
    }
  }

  /** Closing the modal by its backdrop during a delete and confirming another scan
      reopens the modal on the new target with its buttons disabled; the settling of the
      first delete then closes it and forgets the new target, which is never deleted. */
  lemma ConfirmDuringDeleteIsDropped(first: string, second: string)
    requires first != "" && second != ""
    ensures var events := [ConfirmDelete(first), DeleteClick, CloseModal, ConfirmDelete(second), DeleteClick, DeleteSettled];
            var r := RunUi(InitialUi, events);
            r.dispatched == [first] && r.ui == InitialUi
  {
    var events := [ConfirmDelete(first), DeleteClick, CloseModal, ConfirmDelete(second), DeleteClick, DeleteSettled];
    assert events[1..] == [DeleteClick, CloseModal, ConfirmDelete(second), DeleteClick, DeleteSettled];
    assert events[1..][1..] == [CloseModal, ConfirmDelete(second), DeleteClick, DeleteSettled];
    assert events[1..][1..][1..] == [ConfirmDelete(second), DeleteClick, DeleteSettled];
    assert events[1..][1..][1..][1..] == [DeleteClick, DeleteSettled];
    assert events[1..][1..][1..][1..][1..] == [DeleteSettled];
    assert [DeleteSettled][1..] == [];
    var u4 := DeleteUi(Some(second), true, true);
    assert RunUi(u4, [DeleteSettled]) == UiRun(InitialUi, []);
    assert RunUi(u4, [DeleteClick, DeleteSettled]) == UiRun(InitialUi, []);
    var u3 := DeleteUi(Some(first), false, true);
    assert RunUi(u3, [ConfirmDelete(second), DeleteClick, DeleteSettled]) == UiRun(InitialUi, []);
    var u2 := DeleteUi(Some(first), true, true);
    assert RunUi(u2, [CloseModal, ConfirmDelete(second), DeleteClick, DeleteSettled]) == UiRun(InitialUi, []);
    var u1 := DeleteUi(Some(first), true, false);
    assert RunUi(u1, events[1..]) == UiRun(InitialUi, [first]);
  }

  /** A target that is the empty string passes the confirmation but never dispatches. */
  lemma EmptyIdNeverDeleted()
    ensures RunUi(InitialUi, [ConfirmDelete(""), DeleteClick]).dispatched == []
    ensures RunUi(InitialUi, [ConfirmDelete(""), DeleteClick]).ui == DeleteUi(Some(""), true, false)
  {
    var confirming := Step(InitialUi, ConfirmDelete("")).ui;
    assert [ConfirmDelete(""), DeleteClick][1..] == [DeleteClick];
    assert [DeleteClick][1..] == [];
    assert RunUi(confirming, [DeleteClick]) == UiRun(confirming, []);
  }

  /** The whole of `executeDelete` when the Delete button is clicked: the state, the UI
      after the awaited dispatch and the remote calls made. */
  datatype Executed = Executed(state: Store.RootState, ui: DeleteUi, calls: seq<Call>)

  function ExecuteDelete(s: Store.RootState, ui: DeleteUi, env: string, reply: HttpReply<()>): (r: Executed)
    // nothing happens unless the modal is open, enabled and has a truthy target
    ensures !(ui.modalOpen && !ui.deleting && Truthy(ui.target)) ==> r == Executed(s, ui, [])
    // otherwise the modal closes and forgets its target whatever the outcome
    ensures ui.modalOpen && !ui.deleting && Truthy(ui.target) ==>
              r.ui == InitialUi && r.state.auth == s.auth && r.state.scan == s.scan
    // the records go exactly when the backend confirms; a failure leaves no trace
    ensures ui.modalOpen && !ui.deleting && Truthy(ui.target) && s.auth.session.Some? && reply.OkResponse? ==>
              forall x :: x in r.state.history.scans <==> x in s.history.scans && x.id != ui.target.value
    ensures !(s.auth.session.Some? && reply.OkResponse?) ==> r.state == s
    // a dispatch with a session sends exactly one DELETE and lands where `deleteScan` does
    ensures ui.modalOpen && !ui.deleting && Truthy(ui.target) && s.auth.session.Some? ==>
              |r.calls| == 1 && r.calls[0].DeleteRequest?
    ensures ui.modalOpen && !ui.deleting && Truthy(ui.target) ==>
              r.state == Store.DeleteScan(s, env, ui.target.value, reply).state
    // after a confirmed delete the records that stay keep their order
    ensures ui.modalOpen && !ui.deleting && Truthy(ui.target) && s.auth.session.Some? && reply.OkResponse? ==>
              HistorySlice.IsSubsequence(r.state.history.scans, s.history.scans)
  {
    var click := Step(ui, DeleteClick);
    match click.dispatched
    case None => Executed(s, ui, [])
    case Some(id) =>
      var deleted := Store.DeleteScan(s, env, id, reply);
      Executed(deleted.state, Step(click.ui, DeleteSettled).ui, deleted.calls)
  }

  /** What the page renders. */
  datatype HistoryView =
    | Loader
    | ErrorView(message: string)
    | EmptyMessage
    | ScanList(scans: seq<HistorySlice.ScanRecord>)

  /** The page's render decision. Unlike the dashboard it renders the list even when auth
      has resolved with nobody signed in, while the redirect is under way. */
  function Render(s: Store.RootState): (v: HistoryView)
    ensures v.Loader? <==> s.history.loading || s.auth.loading
    ensures v.ErrorView? <==> !v.Loader? && s.history.error.Some? && s.history.error.value != ""
    ensures v.ErrorView? ==> s.history.error == Some(v.message)
    ensures v.EmptyMessage? <==> !v.Loader? && !v.ErrorView? && |s.history.scans| == 0
    ensures v.ScanList? ==> v.scans == s.history.scans && |v.scans| > 0
  {
    if s.history.loading || s.auth.loading then Loader
    else if s.history.error.Some? && s.history.error.value != "" then ErrorView(s.history.error.value)
    else if |s.history.scans| == 0 then EmptyMessage
    else ScanList(s.history.scans)
  }

  /** Opening the page with a session check that finds a user and a history query that
      succeeds shows that history, or the empty message, and never a stale error. It
      redirects only when the store had already resolved with nobody at mount. */
  lemma SignedInOpenShowsHistory(s: Store.RootState, pendingRendered: bool, session: Session,
                                 rows: seq<HistorySlice.ScanRecord>)
    requires AuthSlice.Consistent(s.auth)
    ensures var r := PageSession.Open(s, pendingRendered, Answer(Some(session)), Answer(rows));
            (r.redirected <==> !s.auth.loading && s.auth.user.None?) &&
            (if |rows| == 0 then Render(r.state) == EmptyMessage else Render(r.state) == ScanList(rows))
  {
    var checked := Store.CheckSession(s, Answer(Some(session)));
    PageSession.ConsistentAfterCheck(s, Answer(Some(session)));
    assert checked.state.auth.user == Some(session.user);
  }

  /** A failed delete leaves an error-free page showing exactly what it showed before. */
  lemma FailedDeleteKeepsView(s: Store.RootState, ui: DeleteUi, env: string, reply: HttpReply<()>)
    requires !reply.OkResponse?
    ensures Render(ExecuteDelete(s, ui, env, reply).state) == Render(s)
  {
  }
}

=== FILE: history_slice.dfy ===
/** The `history` slice: the cached list of the user's past scans. `fetchHistory`
    replaces the whole list with the database's; `deleteScan` asks the backend to delete
    one scan and, once it has, drops every cached record with that id. Neither
    `deleteScan.pending` nor `deleteScan.rejected` has a reducer case. */
module HistorySlice {
  import opened Common

  /** One persisted analysis as the database returns it. */
  datatype ScanRecord = ScanRecord(
    id: string,
    createdAt: string,
    predictionLabel: string,
    confidenceScore: real,
    originalImageUrl: string,
    annotatedImageUrl: Option<string>)

  datatype HistoryState = HistoryState(scans: seq<ScanRecord>, loading: bool, error: Option<string>)

  const Initial: HistoryState := HistoryState([], false, None)

  datatype HistoryAction =
    | FetchPending
    | FetchFulfilled(records: seq<ScanRecord>)
    | FetchRejected(message: string)
    | DeletePending(id: string)
    | DeleteFulfilled(id: string)
    | DeleteRejected(id: string, message: string)

  const NoSession: string := "No session"
  const DeleteFallback: string := "Failed to delete"

  /** `scans.filter(scan => scan.id !== id)`. */
  function RemoveId(scans: seq<ScanRecord>, id: string): (r: seq<ScanRecord>)
    ensures |r| <= |scans|
    ensures forall x :: x in r <==> x in scans && x.id != id
  {
    if |scans| == 0 then []
    else if scans[0].id == id then RemoveId(scans[1..], id)
    else [scans[0]] + RemoveId(scans[1..], id)
  }

  /** How many records carry `id`. */
  function CountId(scans: seq<ScanRecord>, id: string): nat {
    if |scans| == 0 then 0
    else (if scans[0].id == id then 1 else 0) + CountId(scans[1..], id)
  }

  /** `a` is `b` with some elements left out, the rest in their original order. */
  predicate IsSubsequence<T(==)>(a: seq<T>, b: seq<T>)
    decreases |b|
  {
    if |a| == 0 then true
    else if |b| == 0 then false
    else if a[0] == b[0] then IsSubsequence(a[1..], b[1..])
    else IsSubsequence(a, b[1..])
  }

  lemma {:induction false} SubsequenceOfCons<T>(a: seq<T>, x: T, b: seq<T>)
    requires IsSubsequence(a, b)
    ensures IsSubsequence(a, [x] + b)
    decreases |b|, 1
  {
    var xb := [x] + b;
    assert xb[1..] == b;
    if |a| == 0 {
    } else if a[0] == x {
      // IsSubsequence(a[1..], b) follows from IsSubsequence(a, b)
      SubsequenceDropHead(a, b);
    }
  }

  lemma {:induction false} SubsequenceDropHead<T>(a: seq<T>, b: seq<T>)
    requires |a| > 0 && IsSubsequence(a, b)
    ensures IsSubsequence(a[1..], b)
    decreases |b|, 0
  {
    if a[0] == b[0] {
      if |a[1..]| > 0 {
        SubsequenceOfCons(a[1..], b[0], b[1..]);
        assert [b[0]] + b[1..] == b;
      }
    } else {
      SubsequenceDropHead(a, b[1..]);
      if |a[1..]| > 0 {
        SubsequenceOfCons(a[1..], b[0], b[1..]);
        assert [b[0]] + b[1..] == b;
      }
    }
  }

  /** The delete filter keeps exactly the records with another id, in their original
      order, and drops one record per occurrence of `id`. */
  lemma {:induction false} RemoveIdSpec(scans: seq<ScanRecord>, id: string)
    ensures IsSubsequence(RemoveId(scans, id), scans)
    ensures forall x :: x in RemoveId(scans, id) <==> x in scans && x.id != id
    ensures |RemoveId(scans, id)| + CountId(scans, id) == |scans|
    decreases |scans|
  {
    if |scans| > 0 {
      var rest := RemoveId(scans[1..], id);
      RemoveIdSpec(scans[1..], id);
      assert scans == [scans[0]] + scans[1..];
      if scans[0].id == id {
        SubsequenceOfCons(rest, scans[0], scans[1..]);
      } else {
        var r := [scans[0]] + rest;
        assert r[1..] == rest;
      }
    }
  }

  /** Deleting an id that is not cached leaves the list as it is. */
  lemma {:induction false} RemoveAbsentId(scans: seq<ScanRecord>, id: string)
    requires forall x :: x in scans ==> x.id != id
    ensures RemoveId(scans, id) == scans
    decreases |scans|
  {
    if |scans| > 0 {
      assert scans[0] in scans;
      assert forall x :: x in scans[1..] ==> x in scans;
      RemoveAbsentId(scans[1..], id);
      assert scans == [scans[0]] + scans[1..];
    }
  }

  /** A second delete of the same id finds nothing more to remove. */
  lemma RemoveIdIdempotent(scans: seq<ScanRecord>, id: string)
    ensures RemoveId(RemoveId(scans, id), id) == RemoveId(scans, id)
  {
    RemoveIdSpec(scans, id);
    RemoveAbsentId(RemoveId(scans, id), id);
  }

  /** Deleting distributes over a split list: no record moves across the split. */
  lemma {:induction false} RemoveIdConcat(a: seq<ScanRecord>, b: seq<ScanRecord>, id: string)
    ensures RemoveId(a + b, id) == RemoveId(a, id) + RemoveId(b, id)
    decreases |a|
  {
    if |a| > 0 {
      assert (a + b)[1..] == a[1..] + b;
      RemoveIdConcat(a[1..], b, id);
    } else {
      assert a + b == b;
    }
  }

  /** The `fetchHistory` thunk: it reads no session; the query's rows fulfil it and an
      error from the query rejects it with that error's message. */
  function FetchSettle(reply: Remote<seq<ScanRecord>>): (a: HistoryAction)
    ensures a.FetchFulfilled? <==> reply.Answer?
    ensures a.FetchRejected? <==> reply.Thrown?
    ensures reply.Answer? ==> a.records == reply.value
    ensures reply.Thrown? ==> a.message == reply.message
  {
    match reply
    case Answer(rows) => FetchFulfilled(rows)
    case Thrown(m) => FetchRejected(m)
  }

  /** What running the `deleteScan` thunk body does. */
  datatype DeleteRun = DeleteRun(calls: seq<Call>, settled: HistoryAction)

  /** The `deleteScan` thunk body: a session guard, one DELETE request, then the
      classification of the response. Success settles with the very id asked for. */
  function DeleteThunk(session: Option<Session>, env: string, id: string, reply: HttpReply<()>): (r: DeleteRun)
    ensures session.None? ==> r.calls == [] && r.settled == DeleteRejected(id, NoSession)
    ensures session.Some? ==>
              r.calls == [DeleteRequest(ApiUrl(env) + "/scans/" + id, Bearer(session.value.accessToken))]
    ensures r.settled.DeleteFulfilled? <==> session.Some? && reply.OkResponse?
    ensures r.settled.DeleteFulfilled? || r.settled.DeleteRejected?
    ensures r.settled.id == id
    ensures session.Some? && reply.FailedResponse? && reply.errorField.Answer? ==>
              r.settled.message == OrElse(reply.errorField.value, DeleteFallback)
  {
    match session
    case None => DeleteRun([], DeleteRejected(id, NoSession))
    case Some(s) =>
      var call := DeleteRequest(ApiUrl(env) + "/scans/" + id, Bearer(s.accessToken));
      match reply
      case TransportFailure(m) => DeleteRun([call], DeleteRejected(id, m))
      // the body of an ok response is never read
      case OkResponse(_) => DeleteRun([call], DeleteFulfilled(id))
      case FailedResponse(Answer(e)) => DeleteRun([call], DeleteRejected(id, OrElse(e, DeleteFallback)))
      case FailedResponse(Thrown(m)) => DeleteRun([call], DeleteRejected(id, m))
  }

  /** The history reducer. */
  function Reduce(s: HistoryState, a: HistoryAction): (r: HistoryState)
    // a fetch raises loading and clears the error, keeping the stale list on screen
    ensures a.FetchPending? ==> r.loading && r.error.None? && r.scans == s.scans
    // a successful fetch replaces the whole list
    ensures a.FetchFulfilled? ==> !r.loading && r.scans == a.records && r.error == s.error
    // a failed fetch keeps the list and records the error
    ensures a.FetchRejected? ==> !r.loading && r.error == Some(a.message) && r.scans == s.scans
    // a confirmed delete removes exactly the records with that id and touches nothing else
    ensures a.DeleteFulfilled? ==>
              r.loading == s.loading && r.error == s.error &&
              IsSubsequence(r.scans, s.scans) &&
              (forall x :: x in r.scans <==> x in s.scans && x.id != a.id) &&
              |r.scans| + CountId(s.scans, a.id) == |s.scans|
    // a delete in flight or a failed one is not recorded at all
    ensures (a.DeletePending? || a.DeleteRejected?) ==> r == s
  {
    match a
    case FetchPending => s.(loading := true, error := None)
    case FetchFulfilled(rows) => s.(loading := false, scans := rows)
    case FetchRejected(m) => s.(loading := false, error := Some(m))
    case DeletePending(_) => s
    case DeleteFulfilled(id) =>
      RemoveIdSpec(s.scans, id);
      s.(scans := RemoveId(s.scans, id))
    case DeleteRejected(_, _) => s
  }

  /** A confirmed delete is idempotent and a no-op for an id that is not cached. */
  lemma DeleteFulfilledIdempotent(s: HistoryState, id: string)
    ensures Reduce(Reduce(s, DeleteFulfilled(id)), DeleteFulfilled(id)) == Reduce(s, DeleteFulfilled(id))
    ensures (forall x :: x in s.scans ==> x.id != id) ==> Reduce(s, DeleteFulfilled(id)) == s
  {
    RemoveIdIdempotent(s.scans, id);
    if forall x :: x in s.scans ==> x.id != id {
      RemoveAbsentId(s.scans, id);
    }
  }

  /** Three cached records, the second deleted: the first and third remain, in order. */
  lemma DeleteMiddleOfThree(a: ScanRecord, b: ScanRecord, c: ScanRecord)
    requires a.id != b.id && c.id != b.id
    ensures Reduce(HistoryState([a, b, c], false, None), DeleteFulfilled(b.id)).scans == [a, c]
  {
    assert [a, b, c][1..] == [b, c];
    assert [b, c][1..] == [c];
    assert [c][1..] == [];
    assert RemoveId([c], b.id) == [c];
    assert RemoveId([b, c], b.id) == [c];
    assert RemoveId([a, b, c], b.id) == [a] + [c];
  }
}

=== FILE: page_session.dfy ===
/** The session gate both the dashboard and the history page run: on mount they
    dispatch `checkSession`; whenever the auth slice's user or loading flag changes
    they redirect to the login page if auth has resolved with nobody signed in, and
    otherwise fetch the history when somebody is. */
module PageSession {
  import opened Common
  import AuthSlice
  import HistorySlice
  import Store

  datatype Effect = RedirectToLogin | RequestHistory | NoEffect

  /** The session/history effect for the auth slice's current user and loading flag. */
  function SessionEffect(user: Option<User>, authLoading: bool): (e: Effect)
    ensures e == RedirectToLogin <==> !authLoading && user.None?
    ensures e == RequestHistory <==> user.Some?
    ensures e == NoEffect <==> authLoading && user.None?
  {
    if !authLoading && user.None? then RedirectToLogin
    else if user.Some? then RequestHistory
    else NoEffect
  }

  /** What opening a page leads to: the store afterwards, the remote calls made, and
      whether the page sent the browser to the login page. */
  datatype Opened = Opened(state: Store.RootState, calls: seq<Call>, redirected: bool)

  /** How many effect runs ask for the history. */
  function Requests(effects: seq<Effect>): (n: nat)
    ensures n <= |effects|
    ensures n > 0 <==> RequestHistory in effects
  {
    if |effects| == 0 then 0
    else
      assert effects == [effects[0]] + effects[1..];
      (if effects[0] == RequestHistory then 1 else 0) + Requests(effects[1..])
  }

  /** `fetchHistory` dispatched `n` times, each settling with the same reply. */
  function Refetch(s: Store.RootState, n: nat, reply: Remote<seq<HistorySlice.ScanRecord>>): Store.RootState
    decreases n
  {
    if n == 0 then s else Refetch(Store.FetchHistory(s, reply).state, n - 1, reply)
  }

  /** A second `fetchHistory` settling with the same reply leaves what the first left. */
  lemma FetchHistoryTwiceIsOnce(s: Store.RootState, reply: Remote<seq<HistorySlice.ScanRecord>>)
    ensures Store.FetchHistory(Store.FetchHistory(s, reply).state, reply).state == Store.FetchHistory(s, reply).state
  {
  }

  /** However many times the history is queried with the same reply, the store is what
      one query leaves. */
  lemma {:induction false} RefetchIsOneFetch(s: Store.RootState, n: nat, reply: Remote<seq<HistorySlice.ScanRecord>>)
    requires n > 0
    ensures Refetch(s, n, reply) == Store.FetchHistory(s, reply).state
    decreases n
  {
    if n > 1 {
      RefetchIsOneFetch(Store.FetchHistory(s, reply).state, n - 1, reply);
      FetchHistoryTwiceIsOnce(s, reply);
    }
  }

  /** Whether settling `checkSession` gives the auth slice a different user object. A
      fulfilled check writes the provider's user, a fresh object whenever there is one,
      or null; a rejected check writes no user, so the reference stays. */
  predicate UserReplaced(before: Option<User>, reply: Remote<Option<Session>>) {
    reply.Answer? && (reply.value.Some? || before.Some?)
  }

  /** Mounting a page. The first effect dispatches `checkSession`, whose `pending` and
      provider call happen at once. The second effect then runs with the user and loading
      flag the page was rendered with, so a store that is already signed in asks for the
      history before the check settles. If the page re-renders while the check is
      pending (`pendingRendered`) and `pending` raised the flag, the effect runs again.
      The effect runs after the settle only when its dependencies changed since the last
      render: the flag was up and drops, or the user object was replaced. Every query
      settles with `historyReply`; queries and the check touch different slices, so their
      order does not matter. */
  function Open(s: Store.RootState, pendingRendered: bool, sessionReply: Remote<Option<Session>>,
                historyReply: Remote<seq<HistorySlice.ScanRecord>>): (r: Opened)
    requires AuthSlice.Consistent(s.auth)
    ensures 0 < |r.calls| <= 4 && r.calls[0] == GetSession
    ensures forall i :: 1 <= i < |r.calls| ==> r.calls[i] == SelectScans
    // the page redirects at mount to a store resolved with nobody, or once the check finds nobody
    ensures r.redirected <==> (!s.auth.loading && s.auth.user.None?) || r.state.auth.session.None?
    // it queries the history when a user was there at mount or is there once the check resolves
    ensures SelectScans in r.calls <==> s.auth.user.Some? || r.state.auth.session.Some?
    // however often it was queried, the history is what one query leaves
    ensures SelectScans in r.calls ==> r.state.history == Store.FetchHistory(s, historyReply).state.history
    ensures SelectScans !in r.calls ==> r.state.history == s.history
    // the auth slice is what the check alone leaves, resolved; the scan slice is untouched
    ensures r.state.auth == Store.CheckSession(s, sessionReply).state.auth && !r.state.auth.loading
    ensures r.state.scan == s.scan
    // a fresh load (auth loading, nobody yet) either redirects or queries, as the check decides
    ensures s.auth.loading && s.auth.user.None? ==>
              (r.redirected <==> r.state.auth.session.None?) && (SelectScans in r.calls <==> !r.redirected)
  {
    var atMount := SessionEffect(s.auth.user, s.auth.loading);
    var afterPending := if pendingRendered && !s.auth.loading then SessionEffect(s.auth.user, true) else NoEffect;
    var checked := Store.CheckSession(s, sessionReply);
    ConsistentAfterCheck(s, sessionReply);
    var renderedLoading := s.auth.loading || pendingRendered;
    var afterSettle := if renderedLoading || UserReplaced(s.auth.user, sessionReply)
                       then SessionEffect(checked.state.auth.user, checked.state.auth.loading)
                       else NoEffect;
    var effects := [atMount, afterPending, afterSettle];
    var n := Requests(effects);
    var selects := seq(n, _ => SelectScans);
    var calls := [GetSession] + selects;
    assert n > 0 ==> calls[1] == SelectScans;
    assert n > 0 ==> Refetch(checked.state, n, historyReply) == Store.FetchHistory(checked.state, historyReply).state by {
      if n > 0 {
        RefetchIsOneFetch(checked.state, n, historyReply);
      }
    }
    Opened(Refetch(checked.state, n, historyReply), calls, RedirectToLogin in effects)
  }

  /** `checkSession` keeps the auth slice's user and session in lock-step. */
  lemma ConsistentAfterCheck(s: Store.RootState, reply: Remote<Option<Session>>)
    requires AuthSlice.Consistent(s.auth)
    ensures AuthSlice.Consistent(Store.CheckSession(s, reply).state.auth)
  {
    var pending := Store.Dispatch(s, Store.Auth(AuthSlice.CheckSessionPending));
    assert AuthSlice.Consistent(pending.auth);
  }

  /** A fresh store whose session check finds no session ends on the login page
      without asking for any history. */
  lemma FreshAnonymousVisitIsRedirected(pendingRendered: bool, historyReply: Remote<seq<HistorySlice.ScanRecord>>)
    ensures AuthSlice.Consistent(Store.Initial.auth)
    ensures var r := Open(Store.Initial, pendingRendered, Answer(None), historyReply);
            r.redirected && r.calls == [GetSession] && r.state.history == HistorySlice.Initial
  {
    AuthSlice.InitialConsistent();
  }

  /** Moving to a page with a session already in the store: the history is queried at
      mount, before the check settles, and when the check then finds no session the page
      still redirects, with the queried history in the store. */
  lemma SignedInVisitQueriesBeforeCheck(s: Store.RootState, pendingRendered: bool,
                                        historyReply: Remote<seq<HistorySlice.ScanRecord>>)
    requires AuthSlice.Consistent(s.auth) && s.auth.user.Some? && !s.auth.loading
    ensures var r := Open(s, pendingRendered, Answer(None), historyReply);
            r.redirected && SelectScans in r.calls && r.state.auth.session.None? &&
            r.state.history == Store.FetchHistory(s, historyReply).state.history
  {
  }

  /** With a session kept through the check and a re-render while it is pending, the
      history is queried three times: at mount, after `pending`, after the settle. */
  lemma SignedInVisitQueriesThrice(s: Store.RootState, session: Session,
                                   historyReply: Remote<seq<HistorySlice.ScanRecord>>)
    requires AuthSlice.Consistent(s.auth) && s.auth.user.Some? && !s.auth.loading
    ensures Open(s, true, Answer(Some(session)), historyReply).calls ==
            [GetSession, SelectScans, SelectScans, SelectScans]
  {
    var checked := Store.CheckSession(s, Answer(Some(session)));
    assert checked.state.auth.user == Some(session.user) && !checked.state.auth.loading;
    var effects := [RequestHistory, RequestHistory, RequestHistory];
    assert effects[1..] == [RequestHistory, RequestHistory] && effects[1..][1..] == [RequestHistory];
    assert Requests([RequestHistory]) == 1;
    assert Requests(effects) == 3;
    assert seq(3, _ => SelectScans) == [SelectScans, SelectScans, SelectScans];
  }

  /** A failed check on a store already signed in and resolved leaves the user object and
      the flag as the page rendered them, so the effect does not run again: the history is
      queried once, at mount. */
  lemma FailedCheckOnSignedInStoreQueriesOnce(s: Store.RootState, message: string,
                                              historyReply: Remote<seq<HistorySlice.ScanRecord>>)
    requires AuthSlice.Consistent(s.auth) && s.auth.user.Some? && !s.auth.loading
    ensures var r := Open(s, false, Thrown(message), historyReply);
            r.calls == [GetSession, SelectScans] && !r.redirected
  {
    var effects := [RequestHistory, NoEffect, NoEffect];
    assert effects[1..] == [NoEffect, NoEffect] && effects[1..][1..] == [NoEffect];
    assert Requests([NoEffect]) == 0;
    assert Requests(effects) == 1;
    assert seq(1, _ => SelectScans) == [SelectScans];
  }
}

=== FILE: scan_slice.dfy ===
/** The `scan` slice: the one upload the dashboard shows. `uploadScan` posts the image
    to the backend with the session's bearer token; `clearScan` forgets the last outcome.
    The reducer keeps no request tag, so a completion is applied whichever upload it
    belongs to. */
module ScanSlice {
  import opened Common

  /** What the backend answers for an analysed image. The label is passed through
      unvalidated; the URLs are optional in the response. */
  datatype ScanResult = ScanResult(
    prediction: string,
    confidence: real,
    rawOutput: seq<seq<real>>,
    imageUrl: Option<string>,
    originalUrl: Option<string>,
    annotatedUrl: Option<string>)

  datatype ScanState = ScanState(scanning: bool, result: Option<ScanResult>, error: Option<string>)

  const Initial: ScanState := ScanState(false, None, None)

  datatype ScanAction =
    | UploadPending
    | UploadFulfilled(payload: ScanResult)
    | UploadRejected(message: string)
    | ClearScan

  const NotAuthenticated: string := "User not authenticated"
  const AnalyzeFallback: string := "Failed to analyze scan"

  /** What running the `uploadScan` thunk body does: the calls it issues and the
      action it settles with. */
  datatype UploadRun = UploadRun(calls: seq<Call>, settled: ScanAction)

  /** The `uploadScan` thunk body, run after `pending` was dispatched. Every failure
      (no session, transport, unreadable body, non-ok status) becomes a rejection with
      the message of the error it threw. */
  function UploadThunk(session: Option<Session>, env: string, file: File, reply: HttpReply<ScanResult>): (r: UploadRun)
    // without a session nothing is sent and the upload is refused
    ensures session.None? ==> r.calls == [] && r.settled == UploadRejected(NotAuthenticated)
    // with one, exactly one POST to /predict carries the session's token and the file
    ensures session.Some? ==>
              r.calls == [PostPredict(ApiUrl(env) + "/predict", Bearer(session.value.accessToken), file)]
    // it settles as fulfilled exactly when the response is ok and its body parses, with that body
    ensures r.settled.UploadFulfilled? <==> session.Some? && reply.OkResponse? && reply.payload.Answer?
    ensures r.settled.UploadFulfilled? ==> r.settled.payload == reply.payload.value
    ensures r.settled.UploadFulfilled? || r.settled.UploadRejected?
    // a non-ok response rejects with the body's `error`, or the fallback when it has none
    ensures session.Some? && reply.FailedResponse? && reply.errorField.Answer? ==>
              r.settled == UploadRejected(OrElse(reply.errorField.value, AnalyzeFallback))
  {
    match session
    case None => UploadRun([], UploadRejected(NotAuthenticated))
    case Some(s) =>
      var call := PostPredict(ApiUrl(env) + "/predict", Bearer(s.accessToken), file);
      match reply
      case TransportFailure(m) => UploadRun([call], UploadRejected(m))
      case OkResponse(Answer(body)) => UploadRun([call], UploadFulfilled(body))
      case OkResponse(Thrown(m)) => UploadRun([call], UploadRejected(m))
      case FailedResponse(Answer(e)) => UploadRun([call], UploadRejected(OrElse(e, AnalyzeFallback)))
      case FailedResponse(Thrown(m)) => UploadRun([call], UploadRejected(m))
  }

  /** The scan reducer. */
  function Reduce(s: ScanState, a: ScanAction): (r: ScanState)
    // a new upload starts from a clean slate
    ensures a.UploadPending? ==> r.scanning && r.result.None? && r.error.None?
    // a completion ends scanning and writes only its own field
    ensures a.UploadFulfilled? ==> !r.scanning && r.result == Some(a.payload) && r.error == s.error
    ensures a.UploadRejected? ==> !r.scanning && r.error == Some(a.message) && r.result == s.result
    // clearing forgets the outcome but not whether an upload is in flight
    ensures a.ClearScan? ==> r.result.None? && r.error.None? && r.scanning == s.scanning
  {
    match a
    case UploadPending => ScanState(true, None, None)
    case UploadFulfilled(p) => s.(scanning := false, result := Some(p))
    case UploadRejected(m) => s.(scanning := false, error := Some(m))
    case ClearScan => s.(result := None, error := None)
  }

  /** One upload that is not overtaken ends with exactly one of result and error set. */
  lemma PendingThenSettledHasOneOutcome(s: ScanState, a: ScanAction)
    requires a.UploadFulfilled? || a.UploadRejected?
    ensures var r := Reduce(Reduce(s, UploadPending), a);
            !r.scanning && (r.result.Some? <==> r.error.None?)
  {
  }

  /** Clearing twice is clearing once. */
  lemma ClearIdempotent(s: ScanState)
    ensures Reduce(Reduce(s, ClearScan), ClearScan) == Reduce(s, ClearScan)
  {
  }

  /** No request tag: when two uploads are pending and the earlier one completes, its
      result is shown and `scanning` drops although the later upload is still in flight. */
  lemma LateCompletionOverwrites(s: ScanState, early: ScanResult)
    ensures var twoPending := Reduce(Reduce(s, UploadPending), UploadPending);
            var r := Reduce(twoPending, UploadFulfilled(early));
            twoPending.scanning && !r.scanning && r.result == Some(early)
  {
  }

  /** Because of that, a state showing both a result and an error is reachable from
      the initial state: the earlier upload succeeds, the later one fails. */
  lemma ResultAndErrorTogetherReachable(early: ScanResult, message: string)
    ensures var r := Reduce(Reduce(Reduce(Reduce(Initial, UploadPending), UploadPending),
                                   UploadFulfilled(early)), UploadRejected(message));
            r.result == Some(early) && r.error == Some(message) && !r.scanning
  {
  }
}

=== FILE: store.dfy ===
/** The root store: the `auth`, `scan` and `history` slices side by side. Each action
    is routed to the one slice that owns it; the others are left as they were. The
    three async thunks are run here because they read the auth slice from the store. */
module Store {
  import opened Common
  import AuthSlice
  import ScanSlice
  import HistorySlice

  datatype RootState = RootState(
    auth: AuthSlice.AuthState,
    scan: ScanSlice.ScanState,
    history: HistorySlice.HistoryState)

  /** `makeStore()`'s first state. */
  const Initial: RootState := RootState(AuthSlice.Initial, ScanSlice.Initial, HistorySlice.Initial)

  datatype Action =
    | Auth(authAction: AuthSlice.AuthAction)
    | Scan(scanAction: ScanSlice.ScanAction)
    | History(historyAction: HistorySlice.HistoryAction)

  /** The combined reducer. */
  function Dispatch(s: RootState, a: Action): (r: RootState)
    ensures a.Auth? ==> r.scan == s.scan && r.history == s.history
    ensures a.Scan? ==> r.auth == s.auth && r.history == s.history
    ensures a.History? ==> r.auth == s.auth && r.scan == s.scan
    ensures a.Auth? ==> r.auth == AuthSlice.Reduce(s.auth, a.authAction)
    ensures a.Scan? ==> r.scan == ScanSlice.Reduce(s.scan, a.scanAction)
    ensures a.History? ==> r.history == HistorySlice.Reduce(s.history, a.historyAction)
  {
    match a
    case Auth(x) => s.(auth := AuthSlice.Reduce(s.auth, x))
    case Scan(x) => s.(scan := ScanSlice.Reduce(s.scan, x))
    case History(x) => s.(history := HistorySlice.Reduce(s.history, x))
  }

  /** Dispatching a sequence of actions in order. */
  function Run(s: RootState, actions: seq<Action>): RootState
    decreases |actions|
  {
    if |actions| == 0 then s else Run(Dispatch(s, actions[0]), actions[1..])
  }

  lemma {:induction false} RunConcat(s: RootState, xs: seq<Action>, ys: seq<Action>)
    ensures Run(s, xs + ys) == Run(Run(s, xs), ys)
    decreases |xs|
  {
    if |xs| > 0 {
      assert (xs + ys)[1..] == xs[1..] + ys;
      RunConcat(Dispatch(s, xs[0]), xs[1..], ys);
    } else {
      assert xs + ys == ys;
    }
  }

  /** The store's initial state and every state any action sequence reaches from it keep
      the auth slice's user and session in lock-step. */
  lemma {:induction false} RunKeepsAuthConsistent(s: RootState, actions: seq<Action>)
    requires AuthSlice.Consistent(s.auth)
    ensures AuthSlice.Consistent(Run(s, actions).auth)
    decreases |actions|
  {
    if |actions| > 0 {
      RunKeepsAuthConsistent(Dispatch(s, actions[0]), actions[1..]);
    }
  }

  lemma ReachableAuthConsistent(actions: seq<Action>)
    ensures AuthSlice.Consistent(Run(Initial, actions).auth)
  {
    AuthSlice.InitialConsistent();
    RunKeepsAuthConsistent(Initial, actions);
  }

  /** Actions of one slice, however many, never change the other two slices. */
  lemma {:induction false} RunFramesSlices(s: RootState, actions: seq<Action>)
    ensures (forall i :: 0 <= i < |actions| ==> actions[i].Auth?) ==>
              Run(s, actions).scan == s.scan && Run(s, actions).history == s.history
    ensures (forall i :: 0 <= i < |actions| ==> actions[i].Scan?) ==>
              Run(s, actions).auth == s.auth && Run(s, actions).history == s.history
    ensures (forall i :: 0 <= i < |actions| ==> actions[i].History?) ==>
              Run(s, actions).auth == s.auth && Run(s, actions).scan == s.scan
    decreases |actions|
  {
    if |actions| > 0 {
      RunFramesSlices(Dispatch(s, actions[0]), actions[1..]);
      assert forall i :: 1 <= i < |actions| ==> actions[1..][i - 1] == actions[i];
    }
  }

  /** Dispatching a thunk: the state it leaves and the remote calls it made. */
  datatype Step = Step(state: RootState, calls: seq<Call>)

  /** `dispatch(checkSession())`: pending, one provider call, then the settled action. */
  function CheckSession(s: RootState, reply: Remote<Option<Session>>): (r: Step)
    ensures r.calls == [GetSession]
    ensures r.state.scan == s.scan && r.state.history == s.history
    ensures reply.Answer? ==>
              r.state.auth.session == reply.value && !r.state.auth.loading &&
              r.state.auth.error == s.auth.error
    ensures reply.Thrown? ==>
              r.state.auth.session == s.auth.session && !r.state.auth.loading &&
              r.state.auth.error == Some(OrElse(reply.message, AuthSlice.CheckSessionFallback))
  {
    var pending := Dispatch(s, Auth(AuthSlice.CheckSessionPending));
    Step(Dispatch(pending, Auth(AuthSlice.CheckSessionSettle(reply))), [GetSession])
  }

  /** `dispatch(signOut())`. */
  function SignOut(s: RootState, reply: Remote<()>): (r: Step)
    ensures r.calls == [SignOutCall]
    ensures r.state.scan == s.scan && r.state.history == s.history
    ensures reply.Answer? ==> r.state == s.(auth := s.auth.(session := None, user := None))
    ensures reply.Thrown? ==> r.state == s
  {
    var pending := Dispatch(s, Auth(AuthSlice.SignOutPending));
    Step(Dispatch(pending, Auth(AuthSlice.SignOutSettle(reply))), [SignOutCall])
  }

  /** `dispatch(uploadScan(file))`: `pending` is dispatched first, then the thunk body reads
      the session from the store and settles. */
  function UploadScan(s: RootState, env: string, file: File, reply: HttpReply<ScanSlice.ScanResult>): (r: Step)
    ensures r.state.auth == s.auth && r.state.history == s.history
    // the upload always ends with scanning off and exactly one of result and error
    ensures !r.state.scan.scanning
    ensures r.state.scan.result.Some? <==> r.state.scan.error.None?
    ensures s.auth.session.None? ==>
              r.calls == [] && r.state.scan == ScanSlice.ScanState(false, None, Some(ScanSlice.NotAuthenticated))
    ensures s.auth.session.Some? ==> |r.calls| == 1 && r.calls[0].PostPredict?
    // with a session, the outcome is the one the reply carries
    ensures s.auth.session.Some? && reply.OkResponse? && reply.payload.Answer? ==>
              r.state.scan == ScanSlice.ScanState(false, Some(reply.payload.value), None)
    ensures s.auth.session.Some? && reply.FailedResponse? && reply.errorField.Answer? ==>
              r.state.scan == ScanSlice.ScanState(false, None, Some(OrElse(reply.errorField.value, ScanSlice.AnalyzeFallback)))
    ensures s.auth.session.Some? && reply.TransportFailure? ==>
              r.state.scan == ScanSlice.ScanState(false, None, Some(reply.message))
    ensures s.auth.session.Some? && reply.OkResponse? && reply.payload.Thrown? ==>
              r.state.scan == ScanSlice.ScanState(false, None, Some(reply.payload.message))
    ensures s.auth.session.Some? && reply.FailedResponse? && reply.errorField.Thrown? ==>
              r.state.scan == ScanSlice.ScanState(false, None, Some(reply.errorField.message))
  {
    var pending := Dispatch(s, Scan(ScanSlice.UploadPending));
    var run := ScanSlice.UploadThunk(pending.auth.session, env, file, reply);
    Step(Dispatch(pending, Scan(run.settled)), run.calls)
  }

  /** An upload's outcome depends only on the session and the reply: whatever result,
      error or upload in flight the scan slice held before is forgotten. */
  lemma UploadForgetsPreviousOutcome(s: RootState, previous: ScanSlice.ScanState, env: string, file: File,
                                     reply: HttpReply<ScanSlice.ScanResult>)
    ensures UploadScan(s, env, file, reply).calls == UploadScan(s.(scan := previous), env, file, reply).calls
    ensures UploadScan(s, env, file, reply).state.scan == UploadScan(s.(scan := previous), env, file, reply).state.scan
  {
  }

  /** `dispatch(fetchHistory())`: no session is consulted. */
  function FetchHistory(s: RootState, reply: Remote<seq<HistorySlice.ScanRecord>>): (r: Step)
    ensures r.calls == [SelectScans]
    ensures r.state.auth == s.auth && r.state.scan == s.scan
    ensures !r.state.history.loading
    ensures reply.Answer? ==> r.state.history.scans == reply.value && r.state.history.error.None?
    ensures reply.Thrown? ==>
              r.state.history.scans == s.history.scans && r.state.history.error == Some(reply.message)
  {
    var pending := Dispatch(s, History(HistorySlice.FetchPending));
    Step(Dispatch(pending, History(HistorySlice.FetchSettle(reply))), [SelectScans])
  }

  /** `dispatch(deleteScan(id))`. */
  function DeleteScan(s: RootState, env: string, id: string, reply: HttpReply<()>): (r: Step)
    ensures r.state.auth == s.auth && r.state.scan == s.scan
    ensures s.auth.session.None? ==> r.calls == [] && r.state == s
    ensures s.auth.session.Some? ==> |r.calls| == 1 && r.calls[0].DeleteRequest?
    // confirmed: exactly the records with that id go, the rest keep their order
    ensures s.auth.session.Some? && reply.OkResponse? ==>
              r.state.history.loading == s.history.loading &&
              r.state.history.error == s.history.error &&
              HistorySlice.IsSubsequence(r.state.history.scans, s.history.scans) &&
              (forall x :: x in r.state.history.scans <==> x in s.history.scans && x.id != id) &&
              |r.state.history.scans| + HistorySlice.CountId(s.history.scans, id) == |s.history.scans|
    // refused, for whatever reason: the whole store is as it was
    ensures !(s.auth.session.Some? && reply.OkResponse?) ==> r.state == s
  {
    var pending := Dispatch(s, History(HistorySlice.DeletePending(id)));
    var run := HistorySlice.DeleteThunk(pending.auth.session, env, id, reply);
    Step(Dispatch(pending, History(run.settled)), run.calls)
  }

  /** `fetchHistory` performs no session check: with or without a session it issues the
      same query and lands on the same history slice. */
  lemma FetchHistoryIgnoresSession(s: RootState, other: AuthSlice.AuthState, reply: Remote<seq<HistorySlice.ScanRecord>>)
    ensures FetchHistory(s, reply).calls == FetchHistory(s.(auth := other), reply).calls
    ensures FetchHistory(s, reply).state.history == FetchHistory(s.(auth := other), reply).state.history
  {
  }

  /** Two confirmed deletes of the same id are not merged, and need not be: the second
      finds nothing left to remove. */
  lemma RepeatedDeleteHarmless(s: RootState, env: string, id: string)
    requires s.auth.session.Some?
    ensures var once := DeleteScan(s, env, id, OkResponse(Answer(())));
            var twice := DeleteScan(once.state, env, id, OkResponse(Answer(())));
            twice.state == once.state && twice.calls == once.calls
  {
    var once := DeleteScan(s, env, id, OkResponse(Answer(())));
    HistorySlice.DeleteFulfilledIdempotent(s.history, id);
    HistorySlice.RemoveIdSpec(s.history.scans, id);
    assert once.state.history == HistorySlice.Reduce(s.history, HistorySlice.DeleteFulfilled(id));
  }
}

=== FILE: text.dfy ===
/** String helpers with Python's meaning: substring search, `sep in s`,
    `s.split(sep)[0]`, `s.split(sep)[1]`, `s.rsplit('.', 1)[1]` and ASCII `lower()`. */
module Text {
  import opened Common

  /** `pat` occurs in `s` starting at index `k`. */
  predicate OccursAt(s: string, pat: string, k: nat) {
    k + |pat| <= |s| && s[k..k + |pat|] == pat
  }

  /** A one-character pattern occurs exactly where that character stands. */
  lemma OccursAtChar(s: string, c: char, k: nat)
    ensures OccursAt(s, [c], k) <==> k < |s| && s[k] == c
  {
    if k < |s| {
      assert s[k..k + 1] == [s[k]];
    }
  }

  /** Python's `pat in s`. */
  ghost predicate Contains(s: string, pat: string) {
    exists k: nat | k <= |s| :: OccursAt(s, pat, k)
  }

  /** The first index at or after `i` where `pat` occurs. */
  function IndexFrom(s: string, pat: string, i: nat): (r: Option<nat>)
    requires i <= |s|
    decreases |s| - i
    ensures r.Some? ==> i <= r.value <= |s| && OccursAt(s, pat, r.value)
    ensures r.Some? ==> forall k: nat :: i <= k < r.value ==> !OccursAt(s, pat, k)
    ensures r.None? ==> forall k: nat :: i <= k ==> !OccursAt(s, pat, k)
  {
    if OccursAt(s, pat, i) then Some(i)
    else if i == |s| then None
    else IndexFrom(s, pat, i + 1)
  }

  /** The first index where `pat` occurs, if any. */
  function IndexOf(s: string, pat: string): (r: Option<nat>)
    ensures r.Some? <==> Contains(s, pat)
    ensures r.Some? ==> OccursAt(s, pat, r.value)
    ensures r.Some? ==> forall k: nat :: k < r.value ==> !OccursAt(s, pat, k)
  {
    IndexFrom(s, pat, 0)
  }

  /** `s.split(sep)[0]`: the text before the first `sep`, or all of `s`. */
  function FirstField(s: string, sep: string): (r: string)
    requires sep != []
    ensures r <= s
    ensures !Contains(s, sep) ==> r == s
    ensures Contains(s, sep) ==> OccursAt(s, sep, |r|)
    ensures forall k: nat :: k < |r| ==> !OccursAt(s, sep, k)
  {
    match IndexOf(s, sep)
    case Some(i) => s[..i]
    case None => s
  }

  /** `s.split(sep)[1]`: the text between the first `sep` and the next one (or the end).
      Python raises IndexError when `sep` does not occur; that is `None` here. */
  function SecondField(s: string, sep: string): (r: Option<string>)
    requires sep != []
    ensures r.Some? <==> Contains(s, sep)
  {
    match IndexOf(s, sep)
    case Some(i) => Some(FirstField(s[i + |sep|..], sep))
    case None => None
  }

  /** The index of the last occurrence of character `c`, if any. */
  function LastIndexOfChar(s: string, c: char): (r: Option<nat>)
    ensures r.Some? <==> c in s
    ensures r.Some? ==> r.value < |s| && s[r.value] == c && c !in s[r.value + 1..]
  {
    if |s| == 0 then None
    else if s[|s| - 1] == c then Some(|s| - 1)
    else
      var r := LastIndexOfChar(s[..|s| - 1], c);
      assert s == s[..|s| - 1] + [s[|s| - 1]];
      r
  }

  /** Python's `lower()` restricted to ASCII letters. */
  function LowerChar(c: char): char {
    if 'A' <= c <= 'Z' then (c as int + 32) as char else c
  }

  /** Python's `s.lower()` restricted to ASCII letters. */
  function Lower(s: string): (r: string)
    ensures |r| == |s|
    ensures forall i :: 0 <= i < |s| ==> r[i] == LowerChar(s[i])
  {
    if |s| == 0 then [] else [LowerChar(s[0])] + Lower(s[1..])
  }

  /** Lower-casing never creates or removes a non-letter such as '.', '/' or '?'. */
  lemma LowerKeepsPunctuation(s: string, c: char)
    requires !('A' <= c <= 'Z') && !('a' <= c <= 'z')
    ensures c in Lower(s) <==> c in s
  {
    var r := Lower(s);
    if c in r {
      var i :| 0 <= i < |r| && r[i] == c;
      assert LowerChar(s[i]) == c;
    }
    if c in s {
      var i :| 0 <= i < |s| && s[i] == c;
      assert r[i] == c;
    }
  }
}

=== FILE: upload_zone.dfy ===
/** The upload zone: a drop target that doubles as a button opening the file chooser.
    It keeps one piece of state, whether a drag is over it, and forwards the first
    file of a drop or of a chooser selection to the page. Only the click is gated on
    an upload being in progress. */
module UploadZone {
  import opened Common

  datatype ZoneEvent =
    | DragOver
    | DragLeave
      // the dropped files; `None` when the drag carried no file list
    | Drop(files: Option<seq<File>>)
      // the chooser's selection; `None` when the input reports no file list
    | InputChange(files: Option<seq<File>>)
    | Click

  /** The zone's reaction: its new drag state, the file it hands to the page, and
      whether it opens the chooser. */
  datatype ZoneStep = ZoneStep(dragActive: bool, forwarded: Option<File>, opensChooser: bool)

  /** The first file of a list, when there is one. */
  function FirstFile(files: Option<seq<File>>): Option<File> {
    if files.Some? && |files.value| > 0 then Some(files.value[0]) else None
  }

  /** How the zone handles one event, given its drag state and the page's `isScanning`. */
  function Step(dragActive: bool, isScanning: bool, e: ZoneEvent): (r: ZoneStep)
    // a drag over it lights it up; leaving or dropping turns it off; nothing else touches it
    ensures e.DragOver? ==> r.dragActive
    ensures (e.DragLeave? || e.Drop?) ==> !r.dragActive
    ensures (e.InputChange? || e.Click?) ==> r.dragActive == dragActive
    // a file is handed on exactly for a drop or selection holding at least one, and it is the first
    ensures r.forwarded.Some? <==> (e.Drop? || e.InputChange?) && e.files.Some? && |e.files.value| > 0
    ensures r.forwarded.Some? ==> r.forwarded.value == e.files.value[0]
    // only a click opens the chooser, and not while scanning
    ensures r.opensChooser <==> e.Click? && !isScanning
  {
    match e
    case DragOver => ZoneStep(true, None, false)
    case DragLeave => ZoneStep(false, None, false)
    case Drop(files) => ZoneStep(false, FirstFile(files), false)
    case InputChange(files) => ZoneStep(dragActive, FirstFile(files), false)
    case Click => ZoneStep(dragActive, None, !isScanning)
  }

  /** The scanning flag only gates the click: a drop during a scan hands its file on
      just as it would otherwise. */
  lemma DropIgnoresScanning(dragActive: bool, files: seq<File>)
    requires |files| > 0
    ensures Step(dragActive, true, Drop(Some(files))).forwarded == Some(files[0])
    ensures Step(dragActive, true, Click).forwarded.None? && !Step(dragActive, true, Click).opensChooser
  {
  }

  /** A sequence of events: the final drag state, the files handed to the page in order,
      and how many times the chooser opened. */
  datatype ZoneRun = ZoneRun(dragActive: bool, forwarded: seq<File>, chooserOpens: nat)

  function Run(dragActive: bool, isScanning: bool, events: seq<ZoneEvent>): (r: ZoneRun)
    ensures |r.forwarded| <= |events| && r.chooserOpens <= |events|
    decreases |events|
  {
    if |events| == 0 then ZoneRun(dragActive, [], 0)
    else
      var first := Step(dragActive, isScanning, events[0]);
      var rest := Run(first.dragActive, isScanning, events[1..]);
      ZoneRun(rest.dragActive,
              (if first.forwarded.Some? then [first.forwarded.value] else []) + rest.forwarded,
              (if first.opensChooser then 1 else 0) + rest.chooserOpens)
  }

  /** Whether an event carries a file for the page: a drop or a selection with at least one. */
  predicate CarriesFile(e: ZoneEvent) {
    (e.Drop? || e.InputChange?) && e.files.Some? && |e.files.value| > 0
  }

  /** The files a run hands on, read off the events alone: the first file of every drop
      or selection that carries one. */
  function Handed(events: seq<ZoneEvent>): seq<File>
    decreases |events|
  {
    if |events| == 0 then []
    else (if CarriesFile(events[0]) then [events[0].files.value[0]] else []) + Handed(events[1..])
  }

  /** The number of clicks among the events. */
  function Clicks(events: seq<ZoneEvent>): nat
    decreases |events|
  {
    if |events| == 0 then 0 else (if events[0].Click? then 1 else 0) + Clicks(events[1..])
  }

  /** The drag state after a run, read backwards off the events: the last drag-over,
      drag-leave or drop decides it, and with none of them the zone keeps its state. */
  function DragAfter(dragActive: bool, events: seq<ZoneEvent>): bool
    decreases |events|
  {
    if |events| == 0 then dragActive
    else
      match events[|events| - 1]
      case DragOver => true
      case DragLeave => false
      case Drop(_) => false
      case _ => DragAfter(dragActive, events[..|events| - 1])
  }

  /** The files handed on are exactly the first files of the drops and selections that
      carry one, in order; the chooser opens once per click unless scanning. */
  lemma {:induction false} RunForwardsHanded(dragActive: bool, isScanning: bool, events: seq<ZoneEvent>)
    ensures Run(dragActive, isScanning, events).forwarded == Handed(events)
    ensures Run(dragActive, isScanning, events).chooserOpens == if isScanning then 0 else Clicks(events)
    decreases |events|
  {
    if |events| > 0 {
      RunForwardsHanded(Step(dragActive, isScanning, events[0]).dragActive, isScanning, events[1..]);
    }
  }

  /** Running one more event extends the run by that event's step. */
  lemma {:induction false} RunSnoc(dragActive: bool, isScanning: bool, events: seq<ZoneEvent>, e: ZoneEvent)
    ensures var before := Run(dragActive, isScanning, events);
            var last := Step(before.dragActive, isScanning, e);
            Run(dragActive, isScanning, events + [e]) ==
              ZoneRun(last.dragActive,
                      before.forwarded + (if last.forwarded.Some? then [last.forwarded.value] else []),
                      before.chooserOpens + (if last.opensChooser then 1 else 0))
    decreases |events|
  {
    if |events| == 0 {
      assert [e][1..] == [];
    } else {
      assert (events + [e])[1..] == events[1..] + [e];
      RunSnoc(Step(dragActive, isScanning, events[0]).dragActive, isScanning, events[1..], e);
    }
  }

  /** The zone is lit after a run exactly when the last drag event says so. */
  lemma {:induction false} RunDragIsLastDragEvent(dragActive: bool, isScanning: bool, events: seq<ZoneEvent>)
    ensures Run(dragActive, isScanning, events).dragActive == DragAfter(dragActive, events)
    decreases |events|
  {
    if |events| > 0 {
      var init := events[..|events| - 1];
      assert events == init + [events[|events| - 1]];
      RunSnoc(dragActive, isScanning, init, events[|events| - 1]);
      RunDragIsLastDragEvent(dragActive, isScanning, init);
    }
  }

  /** An upload in progress changes nothing about a run but the chooser: the same files
      are handed on and the zone ends in the same drag state. */
  lemma ScanningOnlyGatesChooser(dragActive: bool, events: seq<ZoneEvent>)
    ensures Run(dragActive, true, events).forwarded == Run(dragActive, false, events).forwarded
    ensures Run(dragActive, true, events).dragActive == Run(dragActive, false, events).dragActive
    ensures Run(dragActive, true, events).chooserOpens == 0
  {
    RunForwardsHanded(dragActive, true, events);
    RunForwardsHanded(dragActive, false, events);
    RunDragIsLastDragEvent(dragActive, true, events);
    RunDragIsLastDragEvent(dragActive, false, events);
  }
}
